=== FILE: README.md ===
# AI_Support: triage and reply routes in Dafny

This project models the deterministic core of a two-stage customer-support pipeline. The pipeline is made of three Next.js route handlers.

- **Triage** (`app/api/support/triage/route.ts`) masks PII in a customer message. It then classifies the message by intent and language and extracts a plausible order number, either by rules or from a language model's JSON answer. In both cases the result goes through a schema check and an order-number filter.
- **Reply** (`app/api/support/reply/route.ts`) re-validates the order number and answers in one of two ways. It either picks a template reply, or it composes the message list for the model: guardrails, the triage record with the cleaned number, a mock order-status lookup as tool context, and a note to ask for the number when there is none.
- **Streaming reply** (`app/api/support/reply/stream/route.ts`) has its own copy of the validator and its own template text, which it sends word by word. It also relays a model's server-sent-event body as plain text, keeping only the `data:` lines (section 9.2 of the WHATWG HTML Living Standard describes the format).

The model is functional: immutable datatypes and pure functions over `seq<char>`.

| file | module | what it holds |
|---|---|---|
| `base.dfy` | `Base` | `Option`, `Result`, and three facts about sequence concatenation |
| `text.dfy` | `Text` | the JavaScript string built-ins the routes use: `\s` white space, `toUpperCase`/`toLowerCase`, `trim`/`trimStart`, substring search, `split` on one character |
| `regex.dfy` | `Regex` | a backtracking matcher for the regular-expression fragment the routes use, proved to find a match exactly when one exists, at the leftmost position |
| `order_ids.dfy` | `OrderIds` | the shape every accepted order number has, and the stop-word list |
| `triage_schema.dfy` | `TriageSchema` | the triage record, and the schema check with its defaults |
| `triage_rules.dfy` | `TriageRules` | `redactPII`, `detectIntent`, `detectLanguage`, `extractOrderId` |
| `triage_route.dfy` | `TriageRoute` | the triage handler: rule-based assembly and post-processing of a model answer |
| `chat.dfy` | `Chat` | what the two reply routes share: the mock lookup, the polite sentence, the guardrails, the rendering of a number, the chat messages |
| `reply_route.dfy` | `ReplyRoute` | the reply handler |
| `stream_route.dfy` | `ReplyStream` | the streaming handler: template chunks, the event-stream filter, the relay as the route writes it, and a line-buffered reader that corrects it |

The environment, the HTTP layer and the model calls are parameters:
- the `USE_DUMMY_AI` flag is a `Mode` or a `useTemplates` flag;
- whether `OPENAI_API_KEY` is set is `hasApiKey`;
- the model's answer is a function from the messages sent to a datatype of the outcomes the route distinguishes;
- `JSON.parse` of one event payload is a function `tokenOf`.

Two facts about the masking patterns (`app/api/support/triage/route.ts`, lines 29-30) shape what counts as PII:
- the phone pattern matches at least 8 characters that start and end with a digit; everything between may be separators;
- the IBAN pattern is case-sensitive and needs 1 to 30 trailing alphanumerics between word boundaries.

## Model

| member | source | states |
|---|---|---|
| Regex.MatchAtIff | app/api/support/triage/route.ts:28-30 | the matcher finds a match at a position exactly when some alternative of the pattern parses there under backtracking semantics |
| Regex.SearchIff | app/api/support/triage/route.ts:55-62 | `match` finds a match exactly when one exists, and it is the leftmost one |
| Regex.ReplaceAll | app/api/support/triage/route.ts:27-30 | a global `replace` with no match anywhere returns the text unchanged |
| Regex.ReplaceCopiesUnmatched | app/api/support/triage/route.ts:27-30 | the global replace copies a stretch of positions where nothing matches unchanged and carries on after it |
| Regex.ReplaceAllAtLeftmost | app/api/support/triage/route.ts:27-30 | at the leftmost match the search finds, the global replace keeps the text before it, writes the replacement, and resumes after the match (after one copied character when the match is empty) |
| TriageSchema.ParseIntent | app/api/support/triage/route.ts:9 | exactly the four intent names are accepted, and each reads back as the name given |
| TriageSchema.ParseUrgency | app/api/support/triage/route.ts:10 | a missing urgency defaults to `low`; exactly `low`/`medium`/`high` are accepted |
| TriageSchema.ParseLang | app/api/support/triage/route.ts:16 | a missing language defaults to `de`; exactly `de`/`en` are accepted |
| TriageSchema.ParseConfidence | app/api/support/triage/route.ts:17 | a missing confidence defaults to 0.6; a given one is accepted exactly when it lies in [0,1], and then unchanged |
| TriageSchema.ParseTriage | app/api/support/triage/route.ts:8-18 | the record passes exactly when every field passes; then its confidence is in [0,1], the intent and entities are those given, and urgency, language and confidence are the given values or, where missing, their defaults; a failure carries at least one issue |
| TriageSchema.ParseToRaw | app/api/support/triage/route.ts:8-18 | any in-range triage record, written out and checked again, comes back unchanged |
| TriageSchema.Defaults | app/api/support/triage/route.ts:10-17 | an accepted record with missing fields gets urgency `low`, language `de` and confidence 0.6 |
| OrderIds.StopWordsHaveNoDigit | app/api/support/triage/route.ts:70 | no stop word contains a digit |
| OrderIds.DigitRulesOutStopWord | app/api/support/triage/route.ts:70-71 | a candidate with a digit is never a stop word, so the stop-word test never rejects a regex candidate |
| TriageRules.EmailNeedsAt | app/api/support/triage/route.ts:28 | any text the e-mail pattern matches in contains `@` |
| TriageRules.PhoneNeedsDigit | app/api/support/triage/route.ts:29 | any text the phone pattern matches in contains a digit |
| TriageRules.IbanNeedsDigit | app/api/support/triage/route.ts:30 | any text the IBAN pattern matches in contains a digit |
| TriageRules.Redact | app/api/support/triage/route.ts:26-31 | masking leaves a text with no `@` and no digit unchanged |
| TriageRules.PlainTextUnmasked | app/api/support/triage/route.ts:26-31 | in a text with no `@` and no digit, none of the e-mail, phone and IBAN patterns matches, so each global replace returns it unchanged |
| TriageRules.DetectIntent | app/api/support/triage/route.ts:34-40 | the families are tried in the order cancellation, order_status, technical: a cancellation keyword in the lower-cased text always gives cancellation, and an order keyword without one gives order_status; order_status and technical each come with a keyword of their family; `other` exactly when no keyword of any family occurs |
| TriageRules.IntentMonotone | app/api/support/triage/route.ts:34-40 | the families are checked in priority order: adding text never lowers the detected intent's rank |
| TriageRules.CancelMyOrder | app/api/support/triage/route.ts:34-37 | "cancel my order" is a cancellation, because cancellation is checked before order_status |
| TriageRules.BorderIsAnOrderTerm | app/api/support/triage/route.ts:37 | "border" counts as an order term: the substring test fires inside words |
| TriageRules.DetectLanguage | app/api/support/triage/route.ts:43-50 | `de` is answered only for a text with a German hit after lower-casing; an umlaut or ß in a text without English hits always gives `de` |
| TriageRules.LanguageTable | app/api/support/triage/route.ts:43-50 | the decision table: German hits only gives `de`; English hits only gives `en`; no hits gives `en`; with both, `de` exactly when the original text has ä/ö/ü/ß in either case |
| TriageRules.UmlautIsGermanHit | app/api/support/triage/route.ts:45-49 | a text with an umlaut or ß always has a German hit after lower-casing |
| TriageRules.KeywordGroup | app/api/support/triage/route.ts:55-58 | the group captured after a keyword has at least two characters from `[A-Za-z0-9-]` and contains a digit |
| TriageRules.TokenGroup | app/api/support/triage/route.ts:61-63 | the fallback token has at least five characters from `[A-Za-z0-9-]` and contains a digit |
| TriageRules.Candidate | app/api/support/triage/route.ts:55-65 | whatever candidate is taken is made of `[A-Za-z0-9-]`, has a digit and has at least two characters |
| TriageRules.KeywordPrecedence | app/api/support/triage/route.ts:55-65 | a keyword match wins and decides alone, even when its candidate is then rejected; the fallback is tried only when no keyword matches |
| TriageRules.UpperOfCandidate | app/api/support/triage/route.ts:67 | upper-casing a candidate changes only ASCII letters and keeps its length, its digit and the `[A-Z0-9-]` charset |
| TriageRules.OnlyLengthDecides | app/api/support/triage/route.ts:65-79 | of the three filters after upper-casing, only the length bound can reject a candidate |
| TriageRules.ExtractOrderId | app/api/support/triage/route.ts:53-80 | every extracted order number is well-shaped: 5..24 characters of `[A-Z0-9-]`, a digit, not a stop word |
| TriageRoute.HeuristicTriage | app/api/support/triage/route.ts:90-103 | the rule-based record always passes the schema; it carries the detected intent and language, urgency `low`, confidence 0.9, and an order number only for order_status, which is then well-shaped |
| TriageRoute.Tighten | app/api/support/triage/route.ts:177-184 | only the order number changes: it is dropped unless the intent is order_status; it is re-extracted from the model's number when that is non-empty, otherwise from the masked message; it is always well-shaped |
| TriageRoute.HandleMasked | app/api/support/triage/route.ts:87-186 | after masking, the route gives the rule-based record or a missing-key error; in model mode a failed request, an empty answer, an unparseable answer and a schema failure each give their own error, and an answer that passes the schema gives exactly that record tightened against the masked text; any order number returned is well-shaped and belongs to order_status |
| TriageRoute.Handle | app/api/support/triage/route.ts:83-190 | an input error exactly when the message is missing or empty; every returned record has confidence in [0,1] and carries an order number only for order_status, and then a well-shaped one |
| TriageRoute.OnlyMaskedTextMatters | app/api/support/triage/route.ts:87-93 | two messages that mask to the same text get the same answer whatever the model does, because only the masked text reaches the rules and the model |
| TriageRoute.DelegatedAnswer | app/api/support/triage/route.ts:168-186 | a model answer that fails the schema is reported with its issues; one that passes gives exactly that record tightened against the masked message, so it comes back as given apart from the order number |
| Text.Trim | app/api/support/reply/route.ts:27 | the result is a slice of the input with no white space at either end, and everything cut off before and after it is white space |
| Text.Upper | app/api/support/reply/route.ts:27 | upper-casing never shortens a text, and on ASCII text it is the letter-by-letter ASCII fold |
| Text.Lower | app/api/support/triage/route.ts:35 | lower-casing never shortens a text, and on ASCII text it lowers each capital letter in place and keeps every other character |
| Text.LowerAppend | app/api/support/triage/route.ts:35 | the lower case of a concatenation is the concatenation of the lower cases |
| Text.TrimStart | app/api/support/reply/stream/route.ts:118 | `trimStart` gives a suffix of its input that does not start with white space, and everything cut off before it is white space |
| Text.TrimIdempotent | app/api/support/reply/route.ts:27 | trimming twice is trimming once |
| Text.Split | app/api/support/reply/stream/route.ts:50 | `split` gives at least one piece, and no piece contains the separator |
| Text.SplitCount | app/api/support/reply/stream/route.ts:50 | `split` gives exactly one more piece than the text has separators |
| Text.JoinSplit | app/api/support/reply/stream/route.ts:50-57 | re-joining the pieces with the separator gives the text back |
| Text.SplitAppend | app/api/support/reply/stream/route.ts:116 | splitting a concatenation is splitting the first part, with its unfinished last piece continued into the second |
| Chat.GetOrderStatus | app/api/support/reply/route.ts:37-40 | the mock lookup echoes the id and always reports shipped, DHL, tracking 00340434123DE, 2 days |
| Chat.LookupIgnoresId | app/api/support/reply/route.ts:37-40 | apart from echoing it, the lookup's answer does not depend on the id |
| Chat.Decimal | app/api/support/reply/route.ts:68-69 | a number's rendering is non-empty, all digits, and has no leading zero |
| Chat.DecimalRoundTrip | app/api/support/reply/route.ts:68-69 | reading a rendered number back gives the number |
| Chat.ToolInfo | app/api/support/reply/route.ts:97-101 | the tool context is filled exactly for order_status with a clean number, and then holds that number's lookup |
| ReplyRoute.CleanOrderId | app/api/support/reply/route.ts:25-34 | a missing or empty id is rejected; otherwise the result is defined exactly when the upper-cased, trimmed id is well-shaped, and it is that id |
| ReplyRoute.IdCharsAreFixed | app/api/support/reply/route.ts:27 | upper-casing and trimming leave an id made of `[A-Z0-9-]` unchanged |
| ReplyRoute.CleanKeepsWellShaped | app/api/support/reply/route.ts:25-34 | a well-shaped id is accepted unchanged |
| ReplyRoute.CleanIdempotent | app/api/support/reply/route.ts:25-34 | cleaning an already cleaned id changes nothing |
| ReplyRoute.ReplyLang | app/api/support/reply/route.ts:49 | the reply language is `de` exactly when the triage says `"de"` |
| ReplyRoute.CancellationHelp | app/api/support/reply/route.ts:74-76 | the cancellation text starts with a space |
| ReplyRoute.TechnicalHelp | app/api/support/reply/route.ts:81-83 | the technical-help text starts with a space |
| ReplyRoute.TemplateReply | app/api/support/reply/route.ts:53-87 | every template reply starts with the polite sentence; an empty or unrecognised intent gives exactly that sentence |
| ReplyRoute.AskShowsExample | app/api/support/reply/route.ts:59-64 | order_status without a clean number gives the polite sentence and the request, which shows the example A12345 |
| ReplyRoute.ShippedMentions | app/api/support/reply/route.ts:66-70 | order_status with a clean number names the number, DHL, the tracking code and the 2-day ETA |
| ReplyRoute.HelpAfterDoubleSpace | app/api/support/reply/route.ts:73-85 | cancellation and technical replies put two spaces after the polite sentence |
| ReplyRoute.ReplyMessages | app/api/support/reply/route.ts:96-128 | the system prompt comes first and the `LANG:` line of the reply language second; the TRIAGE message carries the given cleaned number; the fourth message is a system tool context, filled exactly for order_status with a number and then holding that number's lookup; the user's message is fifth; a sixth message, the ask-for-number note in the reply language, is appended exactly for order_status without a number |
| ReplyRoute.ModelSeesCleanedId | app/api/support/reply/route.ts:48-128 | the number the model sees is absent or well-shaped; a supplied well-shaped number reaches it unchanged; the ask-for-number note is sent exactly when order_status has no clean number; a filled tool context holds the lookup of the number sent |
| ReplyRoute.Handle | app/api/support/reply/route.ts:43-151 | invalid input exactly when the message is empty or missing or there is no triage; template mode gives the template reply for the triage's language, intent and cleaned number; a missing key is an error; model mode sends the reply messages with the system prompt of the reply language and the cleaned number, and answers with the trimmed content ("" when there is none) or the upstream error |
| ReplyStream.CleanOrderId | app/api/support/reply/stream/route.ts:9-18 | an accepted id is the upper-cased, trimmed input and is well-shaped |
| ReplyStream.CleanAgrees | app/api/support/reply/stream/route.ts:9-18 | the stream route's copy of the validator agrees with the reply route's on every input |
| ReplyStream.StreamLang | app/api/support/reply/stream/route.ts:28 | the language is `de` exactly when a triage is present and says `"de"`; a missing triage gives `en` |
| ReplyStream.TemplateText | app/api/support/reply/stream/route.ts:32-47 | the text starts with the polite sentence; it is only that sentence unless the intent is order_status; without a clean number the request follows |
| ReplyStream.ShippedMentions | app/api/support/reply/stream/route.ts:41-46 | with a clean number, the streamed text names it, DHL, the tracking code and "2 Tage."/"2 days." |
| ReplyStream.EmitChunks | app/api/support/reply/stream/route.ts:49-62 | one piece per `split(" ")` piece, in order, each after the first with a leading space, and empty pieces included; one close after the last piece; the pieces concatenate to the text |
| ReplyStream.TemplateStream | app/api/support/reply/stream/route.ts:32-62 | the rule-based stream is the template text sent word by word: one piece per `split(" ")` piece, in order, each after the first with its space in front, then exactly one close; the pieces join up to the text |
| ReplyStream.LineToken | app/api/support/reply/stream/route.ts:116-124 | a line not starting with `data:` gives nothing; a token given is non-empty |
| ReplyStream.DataLineToken | app/api/support/reply/stream/route.ts:117-124 | on a `data:` line, the payload after removing leading white space gives a token exactly when it is not `[DONE]`, parses, and has non-empty content; that token is passed on |
| ReplyStream.LeadingSpacesIgnored | app/api/support/reply/stream/route.ts:118 | any run of white space after `data:` reads the same as none |
| ReplyStream.SkippedLine | app/api/support/reply/stream/route.ts:120-124 | a dropped line, including one whose payload does not parse, is skipped and the following lines are still read |
| ReplyStream.LinesTokens | app/api/support/reply/stream/route.ts:116-125 | every token relayed is non-empty |
| ReplyStream.LinesTokensAppend | app/api/support/reply/stream/route.ts:116-125 | the lines' tokens come out in order: the tokens of two line sequences are those of each, concatenated |
| ReplyStream.PerReadTokens | app/api/support/reply/stream/route.ts:113-126 | as written, the tokens of a sequence of reads, each read split and filtered on its own; every token is non-empty |
| ReplyStream.PerReadAppend | app/api/support/reply/stream/route.ts:113-126 | as written, each read is filtered on its own: a sequence of reads yields the tokens of each read in turn |
| ReplyStream.SplitLineLosesToken | app/api/support/reply/stream/route.ts:115-124 | as written, a `data:` line cut across two reads yields nothing, while the same bytes read whole yield its token |
| ReplyStream.SplitLineSample | app/api/support/reply/stream/route.ts:115-124 | concretely: the reads `data: {"choices":[{"delta":{"content":` and `"Hi"}}]}` plus a line feed yield nothing, while the whole body yields "Hi" |
| ReplyStream.BufferedReadsMatchWhole | app/api/support/reply/stream/route.ts:112-126 | corrected reader: with the unfinished last line carried into the next read, the tokens are those of the whole body, however it is cut into reads |
| ReplyStream.WholeLineReads | app/api/support/reply/stream/route.ts:113-126 | when every read but the last ends with a line feed, the route as written relays the tokens of the whole body, the same as the corrected reader |
| ReplyStream.Relay | app/api/support/reply/stream/route.ts:106-133 | as written: the relayed stream is the tokens of each read in turn, each non-empty, followed by a close when the body ends or an error when a read fails |
| ReplyStream.TriagePayload | app/api/support/reply/stream/route.ts:93 | the TRIAGE payload is the triage given, with the cleaned number written over `entities.orderId`; without a triage it is just that entities record |
| ReplyStream.StreamMessages | app/api/support/reply/stream/route.ts:72-95 | four messages: guardrails, the TRIAGE payload, a system tool context filled exactly for order_status with a clean number and then holding that number's lookup, and the user's message or "" |
| ReplyStream.ModelSeesCleanedId | app/api/support/reply/stream/route.ts:29-95 | the number in the TRIAGE payload is absent or well-shaped; a supplied well-shaped number reaches the model unchanged; the tool context is filled exactly for order_status with a number sent, and then holds that number's lookup |
| ReplyStream.ModelResponse | app/api/support/reply/stream/route.ts:100-133 | an upstream failure gives "OpenAI error: " and the response text; a body gives a stream of the per-read tokens, ending in a close or the read's error |
| ReplyStream.Handle | app/api/support/reply/stream/route.ts:25-139 | an unreadable request gives its error message, or "unknown error" when that is empty; the template mode sends the template text word by word, one piece per `split(" ")` piece, then closes once; a missing key gives "Missing OPENAI_API_KEY"; otherwise the model's response is relayed |

## Left out

- The React page, the layout and the debug route that echoes part of the API key: they are UI and I/O.
- `fetch`, `NextRequest`/`NextResponse`/`Response`, status codes and `req.json()`. The parsed request and the model's answer are parameters. Every error the routes return has status 500.
- `ReadableStream`, `TextEncoder`/`TextDecoder` and the `reader.read()` pump. The body is modelled as the sequence of decoded reads. A UTF-8 sequence split across reads is decoded by `TextDecoder` in stream mode and is not modelled.
- The 150 ms lookup delay and the 40 ms pacing between chunks: timing only.
- `JSON.stringify` of the TRIAGE payload and the tool context. The messages carry the record they serialise.
- `JSON.parse` of the model's triage answer and of each event payload. The first becomes a `Parsed`/`Unparseable` outcome; the second becomes `tokenOf`.
- zod's `.email()` check is the parameter `isEmail`. Type errors in the request body (a non-string message, say) are not modelled. The request fields are `Option<string>`.
- The confidence is a `real`, not a floating-point number.
- Strings are sequences of code points, not UTF-16 code units. `length` therefore counts an astral character once.
- `toUpperCase`/`toLowerCase` are modelled for ASCII, Latin-1 and every character whose upper case is made only of ASCII letters or whose lower case contains an ASCII letter or one of ä/ö/ü/ß. All other characters are left unchanged. This includes ŉ, ǰ, ẖ, ẗ, ẘ, ẙ and ẚ, whose upper case mixes an ASCII letter with a combining or modifier mark. Results do not change, because the order-number charset check rejects those characters either way.
- TriageRules.Redact: no contract says that no e-mail, phone or IBAN match remains after masking. Only the needs-a-digit/needs-`@` facts and the plain-text case are proved.
- ReplyStream.StreamTriage: it keeps only `intent`, `language` and `entities`. The other triage fields are copied into the payload unchanged and are not modelled.
- The wording of the reply route's system prompt and ask-for-number note is kept as fixed text. Contracts place these messages and pick their language, but say nothing about what they say.

## Findings

| source | as written | input that shows it | evidently intended | confidence | as-written member | corrected member |
|---|---|---|---|---|---|---|
| app/api/support/reply/stream/route.ts:115-124 | each read of the event-stream body is split at line feeds on its own, so a `data:` line cut across two reads is split into two fragments and both are dropped | reads `data: {"choices":[{"delta":{"content":` and `"Hi"}}]}` followed by a line feed, with a parser that gives "Hi" for the whole chunk: nothing is relayed | the unfinished last line of a read is kept and continued by the next read, as the event-stream format's line buffering does, so the tokens do not depend on how the body is cut | not executed | ReplyStream.SplitLineLosesToken | ReplyStream.BufferedReadsMatchWhole |

The route model keeps the relay as written: `Relay`, `ModelResponse` and `Handle` use `PerReadTokens`. The corrected reader is `BufferedTokens`. `WholeLineReads` shows the two agree whenever every read but the last ends with a line feed.

=== FILE: base.dfy ===
/** Failure-carrying datatypes shared by the whole model. */
module Base {

  /** JavaScript's `undefined`-or-value, as used for optional fields. */
  datatype Option<+T> = None | Some(value: T)

  /** The outcome of a route handler: a value, or the error response it sends. */
  datatype Result<+T, +E> = Ok(value: T) | Err(error: E)

  lemma AppendAssoc<T>(a: seq<T>, b: seq<T>, c: seq<T>)
    ensures a + (b + c) == (a + b) + c
  {
  }

  /** The first element and the rest of a concatenation whose first part is not empty. */
  lemma ConsAppend<T>(a: seq<T>, b: seq<T>)
    requires |a| > 0
    ensures (a + b)[0] == a[0] && (a + b)[1..] == a[1..] + b
  {
  }

  lemma EmptyAppend<T>(a: seq<T>, b: seq<T>)
    requires |a| == 0
    ensures a + b == b
  {
  }
}

=== FILE: chat.dfy ===
/**
 * What the two reply routes share: the mock order-status lookup, the polite opening
 * sentence, the guardrail prompt, JavaScript's rendering of a whole number, and the
 * shape of the chat messages sent to the model.
 */
module Chat {
  import opened Base
  import opened Text
  import opened TriageSchema

  /** The record the mock `getOrderStatus` tool returns. */
  datatype OrderStatusInfo = OrderStatusInfo(orderId: string, status: string, carrier: string, tracking: string, etaDays: nat)

  /** `getOrderStatus`: a fixed shipment for whatever id it is asked about. */
  function GetOrderStatus(orderId: string): (info: OrderStatusInfo)
    ensures info.orderId == orderId
    ensures info.status == "shipped" && info.carrier == "DHL" && info.tracking == "00340434123DE" && info.etaDays == 2
  {
    OrderStatusInfo(orderId, "shipped", "DHL", "00340434123DE", 2)
  }

  /** The answer does not depend on the id beyond echoing it. */
  lemma LookupIgnoresId(a: string, b: string)
    ensures GetOrderStatus(a).(orderId := b) == GetOrderStatus(b)
  {
  }

  /** The sentence every template reply opens with. */
  function Polite(lang: Lang): string {
    match lang
    case De => "Danke für Ihre Anfrage."
    case En => "Thanks for your message."
  }

  /** The guardrail lines both routes send as the first system message. */
  function Guardrails(lang: Lang): string {
    "You are a support assistant. Respond briefly, politely and in the user's language (" + LangName(lang) + ").\n"
    + "- Never invent order numbers, tracking codes or carriers. Use only provided toolContext.\n"
    + "- If no valid orderId is present for order_status intent, ask for it with an example.\n"
    + "- Keep PII out of logs; do not echo emails or phone numbers."
  }

  function DigitChar(d: nat): (c: char)
    requires d < 10
    ensures IsDigit(c) && c as int - '0' as int == d
  {
    ('0' as int + d) as char
  }

  /** A number's decimal rendering, as a template literal shows a non-negative integer. */
  function Decimal(n: nat): (s: string)
    ensures |s| >= 1
    ensures forall k :: 0 <= k < |s| ==> IsDigit(s[k])
    ensures n > 0 ==> s[0] != '0'
    decreases n
  {
    if n < 10 then [DigitChar(n)] else Decimal(n / 10) + [DigitChar(n % 10)]
  }

  /** The value a string of decimal digits denotes: the independent reading of `Decimal`. */
  function DecimalValue(s: string): nat
    requires forall k :: 0 <= k < |s| ==> IsDigit(s[k])
  {
    if |s| == 0 then 0
    else
      assert IsDigit(s[|s| - 1]);
      DecimalValue(s[..|s| - 1]) * 10 + (s[|s| - 1] as int - '0' as int)
  }

  /** Reading back a rendered number gives the number. */
  lemma {:induction false} DecimalRoundTrip(n: nat)
    ensures DecimalValue(Decimal(n)) == n
    decreases n
  {
    var s := Decimal(n);
    if n < 10 {
      assert s[..0] == [];
    } else {
      DecimalRoundTrip(n / 10);
      assert s[..|s| - 1] == Decimal(n / 10);
    }
  }

  datatype Role = System | User

  /**
   * A message's content. The TRIAGE message and the tool context are JSON texts in the
   * routes; here they keep the record they serialise. A `ToolContext` with no record
   * is the empty string the routes send when there is nothing to report.
   */
  datatype Content<T> =
    | Text(text: string)
    | TriageJson(triage: T)
    | ToolContext(info: Option<OrderStatusInfo>)

  datatype ChatMessage<T> = ChatMessage(role: Role, content: Content<T>)

  /** The tool lookup behind the tool context: only for `order_status` with a clean id. */
  function ToolInfo(isOrderStatus: bool, orderId: Option<string>): (info: Option<OrderStatusInfo>)
    ensures info.Some? <==> isOrderStatus && orderId.Some?
    ensures info.Some? ==> info.value == GetOrderStatus(orderId.value)
  {
    if isOrderStatus && orderId.Some? then Some(GetOrderStatus(orderId.value)) else None
  }
}

=== FILE: order_ids.dfy ===
/**
 * The plausibility rules for order numbers that the triage extractor and both
 * reply routes apply: length 5..24, only `A-Z`, `0-9` and `-`, not a stop word,
 * at least one digit.
 */
module OrderIds {
  import opened Text

  /** The words the `STOP` pattern lists, in upper case. */
  const StopWords: set<string> :=
    {"ORDER", "BESTELLUNG", "AUFTRAG", "STATUS", "TRACK", "SENDUNG", "DELIVERY", "SHIPMENT", "TRACKING"}

  /** `/^(ORDER|...|TRACKING)$/i.test(id)`: all of `id` is one stop word, ASCII case ignored. */
  predicate IsStopWord(id: string) {
    AsciiUpperAll(id) in StopWords
  }

  /** A character `[A-Z0-9-]` accepts. */
  predicate IsIdChar(c: char) {
    IsAsciiUpper(c) || IsDigit(c) || c == '-'
  }

  predicate AllIdChars(s: string) {
    forall k :: 0 <= k < |s| ==> IsIdChar(s[k])
  }

  predicate HasDigit(s: string) {
    exists k :: 0 <= k < |s| && IsDigit(s[k])
  }

  /** The shape of every order id a validator lets through. */
  predicate WellShaped(id: string) {
    && 5 <= |id| <= 24
    && AllIdChars(id)
    && !IsStopWord(id)
    && HasDigit(id)
  }

  /** No stop word contains a digit. */
  lemma StopWordsHaveNoDigit()
    ensures forall w :: w in StopWords ==> !HasDigit(w)
  {
    forall w | w in StopWords
      ensures !HasDigit(w)
    {
      assert forall k :: 0 <= k < |w| ==> IsAsciiUpper(w[k]);
    }
  }

  /** Hence any text with a digit passes the stop-word test, whatever its case. */
  lemma DigitRulesOutStopWord(id: string)
    requires HasDigit(id)
    ensures !IsStopWord(id)
  {
    var k :| 0 <= k < |id| && IsDigit(id[k]);
    assert IsDigit(AsciiUpperAll(id)[k]);
    StopWordsHaveNoDigit();
  }
}

=== FILE: regex.dfy ===
/**
 * The fragment of ECMAScript regular expressions the routes use: character
 * classes under a greedy `{min,max}` quantifier, `\b`, ordered alternatives and
 * the `i` flag (outside Unicode mode). Matching follows the backtracking order
 * of the ECMAScript semantics: alternatives left to right, each quantifier
 * trying its longest count first, the leftmost start position winning.
 *
 * An optional group such as `bestell(?:ung)?` is written as the ordered
 * alternatives `bestellung | bestell`, which is the order backtracking tries them in.
 */
module Regex {
  import opened Base
  import opened Text

  /** A character class `[...]` as written in a pattern. */
  datatype Class =
    | Single(c: char)
    | Range(lo: char, hi: char)
    | Space
    | Union(left: Class, right: Class)

  predicate InClass(k: Class, c: char) {
    match k
    case Single(x) => c == x
    case Range(lo, hi) => lo <= c <= hi
    case Space => IsSpace(c)
    case Union(a, b) => InClass(a, c) || InClass(b, c)
  }

  /**
   * Whether `c` matches `k`. With the `i` flag an ASCII letter also matches its other
   * case; outside Unicode mode no non-ASCII character folds onto ASCII, and the
   * non-ASCII members of the classes used here have no case variants.
   */
  predicate Accepts(k: Class, icase: bool, c: char) {
    InClass(k, c) || (icase && InClass(k, SwapAsciiCase(c)))
  }

  datatype Limit = AtMost(n: nat) | Unbounded

  predicate Within(n: nat, max: Limit) {
    match max
    case AtMost(m) => n <= m
    case Unbounded => true
  }

  function OneLess(max: Limit): Limit {
    match max
    case AtMost(m) => if m == 0 then AtMost(0) else AtMost(m - 1)
    case Unbounded => Unbounded
  }

  /** One step of a pattern: a class repeated greedily `min..max` times, or the assertion `\b`. */
  datatype Item = Repeat(cls: Class, min: nat, max: Limit) | WordBoundary

  /** A pattern: ordered alternatives, each a sequence of items, and its `i` flag. */
  datatype Pattern = Pattern(alts: seq<seq<Item>>, icase: bool)

  /** A successful match: where it starts, which alternative matched, and the position after each item. */
  datatype Match = Match(start: nat, alt: nat, ends: seq<nat>)

  function Once(k: Class): Item {
    Repeat(k, 1, AtMost(1))
  }

  /** A literal word, one item per character. */
  function Literal(w: string): (items: seq<Item>)
    ensures |items| == |w|
    ensures forall j :: 0 <= j < |w| ==> items[j] == Once(Single(w[j]))
  {
    seq(|w|, j requires 0 <= j < |w| => Once(Single(w[j])))
  }

  predicate AtWordBoundary(s: string, i: nat)
    requires i <= |s|
  {
    (i > 0 && IsWordChar(s[i - 1])) != (i < |s| && IsWordChar(s[i]))
  }

  /** The position after the last item, or `i` when there are none. */
  function EndOf(i: nat, ends: seq<nat>): nat {
    if |ends| == 0 then i else ends[|ends| - 1]
  }

  /** Item `item` can consume exactly `s[i..e]`. */
  ghost predicate Step(item: Item, icase: bool, s: string, i: nat, e: nat)
    requires i <= e <= |s|
  {
    match item
    case WordBoundary => e == i && AtWordBoundary(s, i)
    case Repeat(k, min, max) =>
      && min <= e - i
      && Within(e - i, max)
      && forall q :: i <= q < e ==> Accepts(k, icase, s[q])
  }

  /** `ends` is a way of matching `items` one after the other, starting at `i`: the declarative meaning of a match. */
  ghost predicate Parses(items: seq<Item>, icase: bool, s: string, i: nat, ends: seq<nat>)
    decreases |items|
  {
    && i <= |s|
    && |ends| == |items|
    && (|items| > 0 ==>
          && i <= ends[0] <= |s|
          && Step(items[0], icase, s, i, ends[0])
          && Parses(items[1..], icase, s, ends[0], ends[1..]))
  }

  /** Some alternative of `p` can match starting at `i`. */
  ghost predicate MatchesAt(p: Pattern, s: string, i: nat) {
    exists a: nat, ends: seq<nat> :: a < |p.alts| && Parses(p.alts[a], p.icase, s, i, ends)
  }

  /** The greedy count: how many characters from `i` on are in `k`, up to `max`. */
  function Run(k: Class, icase: bool, s: string, i: nat, max: Limit): (n: nat)
    requires i <= |s|
    ensures i + n <= |s| && Within(n, max)
    ensures forall q :: i <= q < i + n ==> Accepts(k, icase, s[q])
    ensures i + n == |s| || !Accepts(k, icase, s[i + n]) || max == AtMost(n)
    decreases |s| - i
  {
    if i == |s| || !Accepts(k, icase, s[i]) || max == AtMost(0) then 0
    else 1 + Run(k, icase, s, i + 1, OneLess(max))
  }

  /** Backtracking match of `items` at `i`; on success, the position after each item. */
  function MatchItems(items: seq<Item>, icase: bool, s: string, i: nat): (r: Option<seq<nat>>)
    requires i <= |s|
    ensures r.Some? ==> Parses(items, icase, s, i, r.value)
    ensures r.Some? ==> i <= EndOf(i, r.value) <= |s|
    decreases |items|, 1, 0
  {
    if |items| == 0 then Some([])
    else
      match items[0]
      case WordBoundary =>
        if !AtWordBoundary(s, i) then None
        else
          (match MatchItems(items[1..], icase, s, i)
           case Some(t) => Some([i] + t)
           case None => None)
      case Repeat(k, min, max) =>
        TryCounts(items, icase, s, i, Run(k, icase, s, i, max))
  }

  /** The greedy quantifier of `items[0]`: try `n` characters, then `n - 1`, down to its minimum. */
  function TryCounts(items: seq<Item>, icase: bool, s: string, i: nat, n: nat): (r: Option<seq<nat>>)
    requires |items| > 0 && items[0].Repeat? && i + n <= |s|
    requires n <= Run(items[0].cls, icase, s, i, items[0].max)
    ensures r.Some? ==> Parses(items, icase, s, i, r.value)
    ensures r.Some? ==> i <= EndOf(i, r.value) <= |s|
    decreases |items|, 0, n
  {
    if n < items[0].min then None
    else
      match MatchItems(items[1..], icase, s, i + n)
      case Some(t) =>
        assert [i + n] + t == [i + n] + t && ([i + n] + t)[1..] == t;
        Some([i + n] + t)
      case None =>
        if n == 0 then None else TryCounts(items, icase, s, i, n - 1)
  }

  /** Tries the alternatives of `p` from the `a`-th on, in order. */
  function FirstAlt(p: Pattern, s: string, i: nat, a: nat): (r: Option<Match>)
    requires i <= |s|
    ensures r.Some? ==> a <= r.value.alt < |p.alts| && r.value.start == i
    ensures r.Some? ==> MatchItems(p.alts[r.value.alt], p.icase, s, i) == Some(r.value.ends)
    ensures forall b :: a <= b < |p.alts| && (r.None? || b < r.value.alt) ==> MatchItems(p.alts[b], p.icase, s, i).None?
    decreases |p.alts| - a
  {
    if a >= |p.alts| then None
    else
      match MatchItems(p.alts[a], p.icase, s, i)
      case Some(t) => Some(Match(i, a, t))
      case None => FirstAlt(p, s, i, a + 1)
  }

  /** A match of `p` that starts exactly at `i`. */
  function MatchAt(p: Pattern, s: string, i: nat): (r: Option<Match>)
    requires i <= |s|
    ensures r.Some? ==> r.value.start == i && r.value.alt < |p.alts|
    ensures r.Some? ==> Parses(p.alts[r.value.alt], p.icase, s, i, r.value.ends)
    ensures r.Some? ==> i <= EndOf(i, r.value.ends) <= |s|
  {
    FirstAlt(p, s, i, 0)
  }

  /** `String.prototype.match` without the `g` flag: the leftmost match at or after `from`. */
  function Search(p: Pattern, s: string, from: nat): (r: Option<Match>)
    requires from <= |s|
    ensures r.Some? ==> from <= r.value.start <= |s| && MatchAt(p, s, r.value.start) == r
    ensures forall q :: from <= q <= |s| && (r.None? || q < r.value.start) ==> MatchAt(p, s, q).None?
    decreases |s| - from
  {
    match MatchAt(p, s, from)
    case Some(m) => Some(m)
    case None => if from == |s| then None else Search(p, s, from + 1)
  }

  /**
   * `s.replace(p, repl)` with the `g` flag, from position `i` on: each leftmost match is
   * replaced and the scan resumes after it; an empty match copies one character.
   */
  function ReplaceFrom(p: Pattern, s: string, i: nat, repl: string): (r: string)
    requires i <= |s|
    ensures (forall q :: i <= q <= |s| ==> MatchAt(p, s, q).None?) ==> r == s[i..]
    decreases |s| - i
  {
    match MatchAt(p, s, i)
    case Some(m) =>
      var e := EndOf(i, m.ends);
      if e > i then repl + ReplaceFrom(p, s, e, repl)
      else if i < |s| then repl + [s[i]] + ReplaceFrom(p, s, i + 1, repl)
      else repl
    case None =>
      if i < |s| then
        var rest := ReplaceFrom(p, s, i + 1, repl);
        assert [s[i]] + s[i + 1..] == s[i..];
        [s[i]] + rest
      else []
  }

  function ReplaceAll(p: Pattern, s: string, repl: string): (r: string)
    ensures (forall q :: 0 <= q <= |s| ==> MatchAt(p, s, q).None?) ==> r == s
  {
    ReplaceFrom(p, s, 0, repl)
  }

  /** The global replace copies a stretch of positions where nothing matches unchanged. */
  lemma {:induction false} ReplaceCopiesUnmatched(p: Pattern, s: string, from: nat, i: nat, repl: string)
    requires from <= i <= |s|
    requires forall q :: from <= q < i ==> MatchAt(p, s, q).None?
    ensures ReplaceFrom(p, s, from, repl) == s[from..i] + ReplaceFrom(p, s, i, repl)
    decreases i - from
  {
    if from < i {
      ReplaceSkips(p, s, from, repl);
      ReplaceCopiesUnmatched(p, s, from + 1, i, repl);
      AppendAssoc([s[from]], s[from + 1..i], ReplaceFrom(p, s, i, repl));
      ConsSlice(s, from, i);
    }
  }

  /** Where nothing matches, the global replace copies one character and moves on. */
  lemma ReplaceSkips(p: Pattern, s: string, i: nat, repl: string)
    requires i < |s| && MatchAt(p, s, i).None?
    ensures ReplaceFrom(p, s, i, repl) == [s[i]] + ReplaceFrom(p, s, i + 1, repl)
  {
  }

  lemma ConsSlice(s: string, a: nat, b: nat)
    requires a < b <= |s|
    ensures [s[a]] + s[a + 1..b] == s[a..b]
  {
  }

  /**
   * One step of `replace` with the `g` flag on a whole text: the text before the
   * leftmost match is kept, the match is replaced, and the scan resumes after it
   * (after one copied character when the match is empty).
   */
  lemma ReplaceAllAtLeftmost(p: Pattern, s: string, repl: string)
    requires Search(p, s, 0).Some?
    ensures var i := Search(p, s, 0).value.start;
            var e := EndOf(i, Search(p, s, 0).value.ends);
            ReplaceAll(p, s, repl)
            == s[..i] + (if e > i then repl + ReplaceFrom(p, s, e, repl)
                         else if i < |s| then repl + [s[i]] + ReplaceFrom(p, s, i + 1, repl)
                         else repl)
  {
    var m := Search(p, s, 0).value;
    ReplaceCopiesUnmatched(p, s, 0, m.start, repl);
    assert MatchAt(p, s, m.start) == Some(m);
  }

  /* ---------- The matcher finds every match there is ---------- */

  lemma {:induction false} RunIsMaximal(k: Class, icase: bool, s: string, i: nat, max: Limit, n: nat)
    requires i + n <= |s| && Within(n, max)
    requires forall q :: i <= q < i + n ==> Accepts(k, icase, s[q])
    ensures n <= Run(k, icase, s, i, max)
    decreases n
  {
    if n > 0 {
      assert Accepts(k, icase, s[i]);
      assert max != AtMost(0);
      RunIsMaximal(k, icase, s, i + 1, OneLess(max), n - 1);
    }
  }

  lemma {:induction false} TryCountsComplete(items: seq<Item>, icase: bool, s: string, i: nat, n: nat, c: nat)
    requires |items| > 0 && items[0].Repeat? && i + n <= |s|
    requires n <= Run(items[0].cls, icase, s, i, items[0].max)
    requires items[0].min <= c <= n
    requires MatchItems(items[1..], icase, s, i + c).Some?
    ensures TryCounts(items, icase, s, i, n).Some?
    decreases n
  {
    if n > c && MatchItems(items[1..], icase, s, i + n).None? {
      TryCountsComplete(items, icase, s, i, n - 1, c);
    }
  }

  /** Completeness: if `items` can match at `i` in any way, the backtracking matcher finds a way. */
  lemma {:induction false} MatchItemsComplete(items: seq<Item>, icase: bool, s: string, i: nat, ends: seq<nat>)
    requires Parses(items, icase, s, i, ends)
    ensures MatchItems(items, icase, s, i).Some?
    decreases |items|
  {
    if |items| > 0 {
      MatchItemsComplete(items[1..], icase, s, ends[0], ends[1..]);
      match items[0]
      case WordBoundary =>
      case Repeat(k, min, max) =>
        RunIsMaximal(k, icase, s, i, max, ends[0] - i);
        TryCountsComplete(items, icase, s, i, Run(k, icase, s, i, max), ends[0] - i);
    }
  }

  lemma {:induction false} FirstAltComplete(p: Pattern, s: string, i: nat, a: nat, b: nat)
    requires i <= |s| && a <= b < |p.alts|
    requires MatchItems(p.alts[b], p.icase, s, i).Some?
    ensures FirstAlt(p, s, i, a).Some?
    decreases b - a
  {
    if a < b && MatchItems(p.alts[a], p.icase, s, i).None? {
      FirstAltComplete(p, s, i, a + 1, b);
    }
  }

  /** `MatchAt` succeeds exactly when some alternative parses at that position. */
  lemma MatchAtIff(p: Pattern, s: string, i: nat)
    requires i <= |s|
    ensures MatchAt(p, s, i).Some? <==> MatchesAt(p, s, i)
  {
    if MatchesAt(p, s, i) {
      var a: nat, ends: seq<nat> :| a < |p.alts| && Parses(p.alts[a], p.icase, s, i, ends);
      MatchItemsComplete(p.alts[a], p.icase, s, i, ends);
      FirstAltComplete(p, s, i, 0, a);
    }
    if MatchAt(p, s, i).Some? {
      var m := MatchAt(p, s, i).value;
      assert Parses(p.alts[m.alt], p.icase, s, i, m.ends);
    }
  }

  /** `Search` fails only when no alternative parses anywhere from `from` on, and otherwise stops at the leftmost such start. */
  lemma SearchIff(p: Pattern, s: string, from: nat)
    requires from <= |s|
    ensures Search(p, s, from).Some? <==> exists q :: from <= q <= |s| && MatchesAt(p, s, q)
    ensures Search(p, s, from).Some? ==>
              MatchesAt(p, s, Search(p, s, from).value.start)
              && forall q :: from <= q < Search(p, s, from).value.start ==> !MatchesAt(p, s, q)
  {
    var r := Search(p, s, from);
    forall q | from <= q <= |s|
      ensures MatchAt(p, s, q).Some? <==> MatchesAt(p, s, q)
    {
      MatchAtIff(p, s, q);
    }
  }
}

=== FILE: reply_route.dfy ===
/**
 * The reply endpoint: re-validation of the order number handed over by triage, the
 * language choice, the template replies of the rule-based mode, and the message list
 * sent to the model otherwise.
 */
module ReplyRoute {
  import opened Base
  import opened Text
  import opened OrderIds
  import opened TriageSchema
  import opened Chat

  /** The `triage` object of the request; enum fields are plain strings here. */
  datatype ReplyTriage = ReplyTriage(intent: string, urgency: string, entities: Entities, language: string, confidence: real)

  /**
   * `cleanOrderId`: an absent or empty id is dropped; otherwise the upper-cased, trimmed
   * text is kept exactly when it is a well-shaped order number.
   */
  function CleanOrderId(maybe: Option<string>): (r: Option<string>)
    ensures maybe.None? || maybe.value == "" ==> r.None?
    ensures maybe.Some? && maybe.value != "" ==> (r.Some? <==> WellShaped(Trim(Upper(maybe.value))))
    ensures r.Some? ==> r.value == Trim(Upper(maybe.value)) && WellShaped(r.value)
  {
    if maybe.None? || maybe.value == "" then None
    else
      var id := Trim(Upper(maybe.value));
      if |id| < 5 || |id| > 24 then None
      else if !AllIdChars(id) then None
      else if IsStopWord(id) then None
      else if !HasDigit(id) then None
      else Some(id)
  }

  /** Text made of `[A-Z0-9-]` is unchanged by upper-casing and trimming. */
  lemma IdCharsAreFixed(id: string)
    requires AllIdChars(id)
    ensures Trim(Upper(id)) == id
  {
    assert forall k :: 0 <= k < |id| ==> id[k] < '\U{0080}';
    assert Upper(id) == AsciiUpperAll(id);
    assert AsciiUpperAll(id) == id;
    TrimOfTrimmed(id);
  }

  /** A well-shaped id passes the check unchanged. */
  lemma CleanKeepsWellShaped(id: string)
    requires WellShaped(id)
    ensures CleanOrderId(Some(id)) == Some(id)
  {
    IdCharsAreFixed(id);
  }

  /** Cleaning twice is cleaning once. */
  lemma CleanIdempotent(maybe: Option<string>)
    ensures CleanOrderId(CleanOrderId(maybe)) == CleanOrderId(maybe)
  {
    if CleanOrderId(maybe).Some? {
      CleanKeepsWellShaped(CleanOrderId(maybe).value);
    }
  }

  /** `triage.language === "de" ? "de" : "en"`. */
  function ReplyLang(language: string): (l: Lang)
    ensures l == De <==> language == "de"
  {
    if language == "de" then De else En
  }

  /** The sample order number the ask texts and the note show. */
  const Example := "A12345"

  function AskForNumber(lang: Lang): string {
    match lang
    case De => " Bitte teilen Sie mir Ihre Bestellnummer mit (z. B. " + Example + "), dann prüfe ich den Status."
    case En => " Please share your order number (e.g., " + Example + ") so I can check the status."
  }

  /** The fixed words around the four looked-up values in the shipped sentence. */
  datatype ShippedWords = ShippedWords(lead: string, mid: string, tr: string, eta: string, unit: string)

  function ShippedPhrases(lang: Lang): ShippedWords {
    match lang
    case De => ShippedWords(" Ihre Bestellung ", " ist unterwegs (", ", Tracking: ", "). Voraussichtliche Zustellung in ca. ", " Tagen.")
    case En => ShippedWords(" Your order ", " is on its way (", ", tracking: ", "). Estimated delivery in ~", " days.")
  }

  function Shipped(lang: Lang, info: OrderStatusInfo): string {
    var w := ShippedPhrases(lang);
    w.lead + info.orderId + w.mid + info.carrier + w.tr + info.tracking + w.eta + Decimal(info.etaDays) + w.unit
  }

  function CancellationHelp(lang: Lang): (t: string)
    ensures |t| > 0 && t[0] == ' '
  {
    match lang
    case De => " " + "Ich kann den Widerruf einleiten. Nennen Sie mir bitte (falls vorhanden) Ihre Bestellnummer und den Grund."
    case En => " " + "I can start the cancellation. Please share your order number (if available) and the reason."
  }

  function TechnicalHelp(lang: Lang): (t: string)
    ensures |t| > 0 && t[0] == ' '
  {
    match lang
    case De => " " + "Bitte beschreiben Sie das technische Problem kurz (Gerät/Browser, Schritt, Fehlermeldung)."
    case En => " " + "Please describe the technical issue briefly (device/browser, step, error message)."
  }

  /** What follows the polite sentence in the rule-based reply. */
  function TemplateAddition(lang: Lang, intent: string, orderId: Option<string>): string {
    if intent == "" then ""
    else if intent == "order_status" then
      if orderId.None? then AskForNumber(lang)
      else Shipped(lang, GetOrderStatus(orderId.value))
    else if intent == "cancellation" then " " + CancellationHelp(lang)
    else if intent == "technical" then " " + TechnicalHelp(lang)
    else ""
  }

  /** The rule-based reply for an intent, given the cleaned order number. */
  function TemplateReply(lang: Lang, intent: string, orderId: Option<string>): (reply: string)
    ensures StartsWith(reply, Polite(lang))
    ensures intent !in {"order_status", "cancellation", "technical"} ==> reply == Polite(lang)
  {
    var polite := Polite(lang);
    var addition := TemplateAddition(lang, intent, orderId);
    StartsWithAppend(polite, addition);
    assert addition == "" ==> polite + addition == polite;
    polite + addition
  }

  /** Without a usable order number, order_status asks for one and shows the example `A12345`. */
  lemma AskShowsExample(lang: Lang)
    ensures TemplateReply(lang, "order_status", None) == Polite(lang) + AskForNumber(lang)
    ensures Contains(TemplateReply(lang, "order_status", None), "A12345")
  {
    var lead := if lang == De then " Bitte teilen Sie mir Ihre Bestellnummer mit (z. B. " else " Please share your order number (e.g., ";
    var rest := if lang == De then "), dann prüfe ich den Status." else ") so I can check the status.";
    assert AskForNumber(lang) == lead + Example + rest;
    ContainsAtEnd(lead, Example);
    ContainsInPrefix(lead + Example, rest, Example);
    ContainsInSuffix(Polite(lang), AskForNumber(lang), Example);
  }

  /** Every piece placed between fixed texts can be found in the result. */
  lemma MentionsPieces(polite: string, lead: string, id: string, mid: string, carrier: string, tr: string,
                       tracking: string, eta: string, n: string, unit: string)
    ensures var d := polite + (lead + id + mid + carrier + tr + tracking + eta + n + unit);
            && Contains(d, id) && Contains(d, carrier) && Contains(d, tracking) && Contains(d, n + unit)
  {
    var a := lead + id;
    var b := a + mid + carrier;
    var c := b + tr + tracking;
    var x := c + eta + n + unit;
    ContainsAtEnd(lead, id);
    ContainsInPrefix(a, mid, id);
    ContainsInPrefix(a + mid, carrier, id);
    ContainsAtEnd(a + mid, carrier);
    ContainsInPrefix(b, tr, id);
    ContainsInPrefix(b, tr, carrier);
    ContainsInPrefix(b + tr, tracking, id);
    ContainsInPrefix(b + tr, tracking, carrier);
    ContainsAtEnd(b + tr, tracking);
    ContainsInPrefix(c, eta, id);
    ContainsInPrefix(c, eta, carrier);
    ContainsInPrefix(c, eta, tracking);
    ContainsInPrefix(c + eta, n, id);
    ContainsInPrefix(c + eta, n, carrier);
    ContainsInPrefix(c + eta, n, tracking);
    ContainsInPrefix(c + eta + n, unit, id);
    ContainsInPrefix(c + eta + n, unit, carrier);
    ContainsInPrefix(c + eta + n, unit, tracking);
    assert x == (c + eta) + (n + unit);
    ContainsAtEnd(c + eta, n + unit);
    ContainsInSuffix(polite, x, id);
    ContainsInSuffix(polite, x, carrier);
    ContainsInSuffix(polite, x, tracking);
    ContainsInSuffix(polite, x, n + unit);
  }

  /** With an order number the reply names it, the carrier, the tracking code and the ETA of 2 days. */
  lemma ShippedMentions(lang: Lang, id: string)
    ensures var reply := TemplateReply(lang, "order_status", Some(id));
            && Contains(reply, id)
            && Contains(reply, "DHL")
            && Contains(reply, "00340434123DE")
            && Contains(reply, if lang == De then "2 Tagen." else "2 days.")
  {
    var info := GetOrderStatus(id);
    var w := ShippedPhrases(lang);
    ShippedSentence(lang, id);
    ShippedUnit(lang);
    MentionsPieces(Polite(lang), w.lead, id, w.mid, info.carrier, w.tr, info.tracking, w.eta, Decimal(info.etaDays), w.unit);
  }

  lemma ShippedSentence(lang: Lang, id: string)
    ensures TemplateReply(lang, "order_status", Some(id)) == Polite(lang) + Shipped(lang, GetOrderStatus(id))
  {
    ShippedAddition(lang, "order_status", id);
  }

  lemma ShippedUnit(lang: Lang)
    ensures Decimal(2) + ShippedPhrases(lang).unit == if lang == De then "2 Tagen." else "2 days."
  {
    assert Decimal(2) == "2";
  }

  lemma ShippedAddition(lang: Lang, intent: string, id: string)
    requires intent == "order_status"
    ensures TemplateAddition(lang, intent, Some(id)) == Shipped(lang, GetOrderStatus(id))
  {
  }

  lemma SpaceBeforeSpaced(a: string, h: string)
    requires |h| > 0 && h[0] == ' '
    ensures StartsWith(a + " " + h, a + "  ")
  {
    assert (a + " " + h)[..|a| + 2] == a + "  ";
  }

  /** Cancellation and technical texts follow the polite sentence after two spaces. */
  lemma HelpAfterDoubleSpace(lang: Lang, intent: string, orderId: Option<string>)
    requires intent == "cancellation" || intent == "technical"
    ensures StartsWith(TemplateReply(lang, intent, orderId), Polite(lang) + "  ")
  {
    if intent == "cancellation" {
      CancellationAddition(lang, intent, orderId);
      HelpAfterSpace(lang, intent, orderId, CancellationHelp(lang));
    } else {
      TechnicalAddition(lang, intent, orderId);
      HelpAfterSpace(lang, intent, orderId, TechnicalHelp(lang));
    }
  }

  lemma CancellationAddition(lang: Lang, intent: string, orderId: Option<string>)
    requires intent == "cancellation"
    ensures TemplateAddition(lang, intent, orderId) == " " + CancellationHelp(lang)
  {
  }

  lemma TechnicalAddition(lang: Lang, intent: string, orderId: Option<string>)
    requires intent == "technical"
    ensures TemplateAddition(lang, intent, orderId) == " " + TechnicalHelp(lang)
  {
  }

  lemma HelpAfterSpace(lang: Lang, intent: string, orderId: Option<string>, help: string)
    requires |help| > 0 && help[0] == ' '
    requires TemplateAddition(lang, intent, orderId) == " " + help
    ensures StartsWith(TemplateReply(lang, intent, orderId), Polite(lang) + "  ")
  {
    var polite := Polite(lang);
    assert TemplateReply(lang, intent, orderId) == polite + (" " + help);
    assert polite + (" " + help) == polite + " " + help;
    SpaceBeforeSpaced(polite, help);
  }

  function SystemPrompt(lang: Lang): string {
    Guardrails(lang) + "\n- Prefer bullet-like clarity in 1-2 sentences."
  }

  function NoNumberNote(lang: Lang): string {
    match lang
    case De => "Hinweis: Es liegt keine valide Bestellnummer vor. Bitte freundlich nach der Nummer fragen (Beispiel: " + Example + ")."
    case En => "Note: No valid order number present. Politely ask for it (example: " + Example + ")."
  }

  /**
   * The messages sent to the model: the system prompt `system` (the route passes
   * `SystemPrompt` of the reply language), language, the triage with the cleaned
   * order number in place of the one supplied, the tool context, the user's message,
   * and for order_status without a usable number a note to ask for one.
   */
  function ReplyMessages(message: string, triage: ReplyTriage, system: string, orderId: Option<string>)
    : (msgs: seq<ChatMessage<ReplyTriage>>)
    ensures |msgs| == (if triage.intent == "order_status" && orderId.None? then 6 else 5)
    ensures msgs[0] == ChatMessage(System, Text(system))
    ensures msgs[1] == ChatMessage(System, Text("LANG:" + LangName(ReplyLang(triage.language))))
    ensures msgs[2] == ChatMessage(System, TriageJson(triage.(entities := triage.entities.(orderId := orderId))))
    ensures msgs[3] == ChatMessage(System, ToolContext(ToolInfo(triage.intent == "order_status", orderId)))
    ensures msgs[3].content.info.Some? <==> triage.intent == "order_status" && orderId.Some?
    ensures msgs[4] == ChatMessage(User, Text(message))
    ensures |msgs| == 6 ==> msgs[5] == ChatMessage(System, Text(NoNumberNote(ReplyLang(triage.language))))
  {
    var lang := ReplyLang(triage.language);
    var base := [
      ChatMessage(System, Text(system)),
      ChatMessage(System, Text("LANG:" + LangName(lang))),
      ChatMessage(System, TriageJson(triage.(entities := triage.entities.(orderId := orderId)))),
      ChatMessage(System, ToolContext(ToolInfo(triage.intent == "order_status", orderId))),
      ChatMessage(User, Text(message))
    ];
    if triage.intent == "order_status" && orderId.None? then base + [ChatMessage(System, Text(NoNumberNote(lang)))]
    else base
  }

  /** What the chat-completions call gave back. */
  datatype ModelReply =
    | HttpFailure(body: string)
    | Completed(content: Option<string>)   // `choices[0].message.content`, if any

  /** The error bodies of the route; each goes out with status 500. */
  datatype ReplyError = InvalidInput | MissingApiKey | UpstreamError(details: string)

  /** `ReplyInput`: a non-empty message and a triage record. */
  predicate ValidInput(message: Option<string>, triage: Option<ReplyTriage>) {
    message.Some? && |message.value| >= 1 && triage.Some?
  }

  /** `POST /api/support/reply`; `useTemplates` is `USE_DUMMY_AI`, `complete` the model call. */
  function Handle(useTemplates: bool, hasApiKey: bool, message: Option<string>, triage: Option<ReplyTriage>,
                  complete: seq<ChatMessage<ReplyTriage>> -> ModelReply): (r: Result<string, ReplyError>)
    ensures !ValidInput(message, triage) <==> r == Err(InvalidInput)
    ensures ValidInput(message, triage) && useTemplates ==>
              r.Ok? && StartsWith(r.value, Polite(ReplyLang(triage.value.language)))
    ensures ValidInput(message, triage) && !useTemplates && !hasApiKey ==> r == Err(MissingApiKey)
    ensures ValidInput(message, triage) && !useTemplates && r.Ok? ==> TrimmedStart(r.value) && TrimmedEnd(r.value)
    ensures ValidInput(message, triage) && useTemplates ==>
              var t := triage.value;
              r == Ok(TemplateReply(ReplyLang(t.language), t.intent, CleanOrderId(t.entities.orderId)))
    ensures ValidInput(message, triage) && !useTemplates && hasApiKey ==>
              var t := triage.value;
              r == match complete(ReplyMessages(message.value, t, SystemPrompt(ReplyLang(t.language)), CleanOrderId(t.entities.orderId)))
                   case HttpFailure(body) => Err(UpstreamError(body))
                   case Completed(content) => Ok(if content.Some? then Trim(content.value) else "")
  {
    if !ValidInput(message, triage) then Err(InvalidInput)
    else
      var t := triage.value;
      var orderId := CleanOrderId(t.entities.orderId);
      var lang := ReplyLang(t.language);
      if useTemplates then Ok(TemplateReply(lang, t.intent, orderId))
      else if !hasApiKey then Err(MissingApiKey)
      else
        match complete(ReplyMessages(message.value, t, SystemPrompt(lang), orderId))
        case HttpFailure(body) => Err(UpstreamError(body))
        case Completed(content) => Ok(if content.Some? then Trim(content.value) else "")
  }

  /**
   * The order number the model and the templates see is the cleaned one: whatever was
   * supplied, it is either absent or well-shaped, and a supplied number that was already
   * well-shaped comes through unchanged.
   */
  lemma ModelSeesCleanedId(message: string, triage: ReplyTriage, system: string)
    ensures var msgs := ReplyMessages(message, triage, system, CleanOrderId(triage.entities.orderId));
            var sent := msgs[2].content.triage.entities.orderId;
            && (sent.Some? ==> WellShaped(sent.value))
            && (triage.entities.orderId.Some? && WellShaped(triage.entities.orderId.value) ==> sent == triage.entities.orderId)
            && (|msgs| == 6 <==> triage.intent == "order_status" && sent.None?)
            && (msgs[3].content.info.Some? ==> msgs[3].content.info.value == GetOrderStatus(sent.value))
  {
    if triage.entities.orderId.Some? && WellShaped(triage.entities.orderId.value) {
      CleanKeepsWellShaped(triage.entities.orderId.value);
    }
  }
}

=== FILE: stream_route.dfy ===
/**
 * The streaming reply endpoint: its own copy of the order-number check, its own
 * template text sent word by word, and the relay of the model's server-sent events
 * as plain text.
 */
module ReplyStream {
  import opened Base
  import opened Text
  import opened OrderIds
  import opened TriageSchema
  import opened Chat
  import ReplyRoute

  /**
   * The `triage` value as this route reads it, without a schema: any part may be
   * missing. Only the fields the route looks at are kept.
   */
  datatype StreamTriage = StreamTriage(intent: Option<string>, language: Option<string>, entities: Option<Entities>)

  /** The route's own `cleanOrderId`, written out again as the route does. */
  function CleanOrderId(maybe: Option<string>): (r: Option<string>)
    ensures r.Some? ==> maybe.Some? && r.value == Trim(Upper(maybe.value)) && WellShaped(r.value)
  {
    if maybe.None? || maybe.value == "" then None
    else
      var id := Trim(Upper(maybe.value));
      if |id| < 5 || |id| > 24 then None
      else if !AllIdChars(id) then None
      else if IsStopWord(id) then None
      else if !HasDigit(id) then None
      else Some(id)
  }

  /** The two copies of the check agree on every input. */
  lemma CleanAgrees(maybe: Option<string>)
    ensures CleanOrderId(maybe) == ReplyRoute.CleanOrderId(maybe)
  {
  }

  /** `triage?.entities?.orderId` */
  function SuppliedId(triage: Option<StreamTriage>): Option<string> {
    if triage.Some? && triage.value.entities.Some? then triage.value.entities.value.orderId else None
  }

  /** `triage?.language === "de" ? "de" : "en"`: a missing triage or language gives `en`. */
  function StreamLang(triage: Option<StreamTriage>): (l: Lang)
    ensures l == De <==> triage.Some? && triage.value.language == Some("de")
  {
    if triage.Some? && triage.value.language == Some("de") then De else En
  }

  /** `triage?.intent === "order_status"` */
  predicate IsOrderStatus(triage: Option<StreamTriage>) {
    triage.Some? && triage.value.intent == Some("order_status")
  }

  function AskForNumber(lang: Lang): string {
    match lang
    case De => " Bitte nennen Sie Ihre Bestellnummer (z. B. " + ReplyRoute.Example + "), dann prüfe ich den Status."
    case En => " Please share your order number (e.g., " + ReplyRoute.Example + ") so I can check the status."
  }

  /** The streamed shipped sentence uses the same slots as the JSON route's, with a shorter ETA. */
  function ShippedPhrases(lang: Lang): ReplyRoute.ShippedWords {
    match lang
    case De => ReplyRoute.ShippedWords(" Ihre Bestellung ", " ist unterwegs (", ", Tracking: ", "). ETA ~", " Tage.")
    case En => ReplyRoute.ShippedWords(" Your order ", " is on its way (", ", tracking: ", "). ETA ~", " days.")
  }

  function Shipped(lang: Lang, info: OrderStatusInfo): string {
    var w := ShippedPhrases(lang);
    w.lead + info.orderId + w.mid + info.carrier + w.tr + info.tracking + w.eta + Decimal(info.etaDays) + w.unit
  }

  /**
   * The text the rule-based mode streams: the polite sentence, followed only for
   * order_status by the ask or the shipment text.
   */
  function TemplateText(lang: Lang, isOrderStatus: bool, orderId: Option<string>): (text: string)
    ensures StartsWith(text, Polite(lang))
    ensures !isOrderStatus ==> text == Polite(lang)
    ensures isOrderStatus && orderId.None? ==> text == Polite(lang) + AskForNumber(lang)
  {
    var addition :=
      if !isOrderStatus then ""
      else if orderId.None? then AskForNumber(lang)
      else Shipped(lang, GetOrderStatus(orderId.value));
    StartsWithAppend(Polite(lang), addition);
    assert addition == "" ==> Polite(lang) + addition == Polite(lang);
    Polite(lang) + addition
  }

  /** For order_status with a clean number, the text names the number, the carrier, the tracking code and the ETA. */
  lemma ShippedMentions(lang: Lang, id: string)
    ensures var text := TemplateText(lang, true, Some(id));
            && Contains(text, id)
            && Contains(text, "DHL")
            && Contains(text, "00340434123DE")
            && Contains(text, if lang == De then "2 Tage." else "2 days.")
  {
    var info := GetOrderStatus(id);
    var w := ShippedPhrases(lang);
    ShippedSentence(lang, id);
    ShippedUnit(lang);
    ReplyRoute.MentionsPieces(Polite(lang), w.lead, id, w.mid, info.carrier, w.tr, info.tracking, w.eta, Decimal(info.etaDays), w.unit);
  }

  lemma ShippedSentence(lang: Lang, id: string)
    ensures TemplateText(lang, true, Some(id)) == Polite(lang) + Shipped(lang, GetOrderStatus(id))
  {
  }

  lemma ShippedUnit(lang: Lang)
    ensures Decimal(2) + ShippedPhrases(lang).unit == if lang == De then "2 Tage." else "2 days."
  {
    assert Decimal(2) == "2";
  }

  /** What the response stream delivers, one event at a time. */
  datatype StreamEvent = Enqueue(piece: string) | Close | Fail(reason: string)

  /** The texts enqueued, in order. */
  function Pieces(events: seq<StreamEvent>): seq<string> {
    if |events| == 0 then []
    else (if events[0].Enqueue? then [events[0].piece] else []) + Pieces(events[1..])
  }

  lemma {:induction false} PiecesAppend(a: seq<StreamEvent>, b: seq<StreamEvent>)
    ensures Pieces(a + b) == Pieces(a) + Pieces(b)
  {
    if |a| == 0 {
      EmptyAppend(a, b);
    } else {
      ConsAppend(a, b);
      PiecesAppend(a[1..], b);
      var head := if a[0].Enqueue? then [a[0].piece] else [];
      AppendAssoc(head, Pieces(a[1..]), Pieces(b));
    }
  }

  /**
   * `events` is `text` sent word by word: one piece per piece of `split(" ")`, in order,
   * each after the first with its space in front, then exactly one close.
   */
  predicate WordStream(events: seq<StreamEvent>, text: string) {
    var chunks := Split(text, ' ');
    && |events| == |chunks| + 1
    && (forall k :: 0 <= k < |chunks| ==> events[k] == Enqueue((if k > 0 then " " else "") + chunks[k]))
    && events[|chunks|] == Close
  }

  /**
   * The word-by-word stream of the rule-based mode: the text is split at every space,
   * each piece after the first is sent with the space in front of it, and the stream is
   * closed once, after the last piece. Empty pieces from consecutive spaces are sent too.
   */
  method EmitChunks(text: string) returns (events: seq<StreamEvent>)
    ensures WordStream(events, text)
    ensures Concat(Pieces(events)) == text
  {
    var chunks := Split(text, ' ');
    events := [];
    var i := 0;
    while i < |chunks|
      invariant 0 <= i <= |chunks|
      invariant |events| == i
      invariant forall k :: 0 <= k < i ==> events[k] == Enqueue((if k > 0 then " " else "") + chunks[k])
      invariant i > 0 ==> Concat(Pieces(events)) == Join(chunks[..i], ' ')
      invariant i == 0 ==> Pieces(events) == []
    {
      var piece := (if i > 0 then " " else "") + chunks[i];
      EmitStep(events, chunks, i);
      events := events + [Enqueue(piece)];
      i := i + 1;
    }
    assert chunks[..i] == chunks;
    JoinSplit(text, ' ');
    PiecesAppend(events, [Close]);
    assert Pieces([Close]) == [];
    assert Pieces(events) + [] == Pieces(events);
    events := events + [Close];
  }

  /** One turn of `EmitChunks`' loop: sending the next piece extends the joined text by it. */
  lemma EmitStep(events: seq<StreamEvent>, chunks: seq<string>, i: nat)
    requires i < |chunks|
    requires i > 0 ==> Concat(Pieces(events)) == Join(chunks[..i], ' ')
    requires i == 0 ==> Pieces(events) == []
    ensures Concat(Pieces(events + [Enqueue((if i > 0 then " " else "") + chunks[i])])) == Join(chunks[..i + 1], ' ')
  {
    var piece := (if i > 0 then " " else "") + chunks[i];
    PiecesAppend(events, [Enqueue(piece)]);
    assert Pieces([Enqueue(piece)]) == [piece];
    ConcatAppend(Pieces(events), [piece]);
    assert Concat([piece]) == piece;
    if i > 0 {
      JoinSnoc(chunks[..i], chunks[i], ' ');
      assert chunks[..i + 1] == chunks[..i] + [chunks[i]];
    } else {
      assert chunks[..1] == [chunks[0]];
    }
  }

  /* ---------- Relaying the model's event stream ---------- */

  /** The `data:` field name the line filter looks for. */
  const DataPrefix := "data:"

  /**
   * The token one line of the event stream contributes. `tokenOf` stands for
   * `JSON.parse` followed by `choices[0].delta.content || ""`, with `None` for a payload
   * that does not parse; a failed parse skips the line and the relay goes on.
   */
  function LineToken(line: string, tokenOf: string -> Option<string>): (r: Option<string>)
    ensures r.Some? ==> r.value != "" && StartsWith(line, DataPrefix)
    ensures !StartsWith(line, DataPrefix) ==> r.None?
  {
    if !StartsWith(line, DataPrefix) then None
    else
      var payload := TrimStart(line[5..]);
      if payload == "[DONE]" then None
      else
        match tokenOf(payload)
        case None => None
        case Some(t) => if t == "" then None else Some(t)
  }

  /**
   * Unlike the event-stream format, which removes a single space after the colon, the
   * filter removes every leading space: any run of white space after `data:` reads the same.
   */
  lemma LeadingSpacesIgnored(spaces: string, payload: string, tokenOf: string -> Option<string>)
    requires forall k :: 0 <= k < |spaces| ==> IsSpace(spaces[k])
    requires TrimmedStart(payload)
    ensures LineToken(DataPrefix + (spaces + payload), tokenOf) == LineToken(DataPrefix + payload, tokenOf)
  {
    TrimStartOfSpaces(spaces, payload);
    DataLine(spaces + payload);
    DataLine(payload);
    assert TrimStart(payload) == payload;
  }

  lemma {:induction false} TrimStartOfSpaces(spaces: string, rest: string)
    requires forall k :: 0 <= k < |spaces| ==> IsSpace(spaces[k])
    requires TrimmedStart(rest)
    ensures TrimStart(spaces + rest) == rest
  {
    if |spaces| == 0 {
      assert spaces + rest == rest;
    } else {
      assert (spaces + rest)[0] == spaces[0];
      assert (spaces + rest)[1..] == spaces[1..] + rest;
      TrimStartOfSpaces(spaces[1..], rest);
    }
  }

  /** The tokens a sequence of lines contributes, in order. */
  function LinesTokens(lines: seq<string>, tokenOf: string -> Option<string>): (tokens: seq<string>)
    ensures forall k :: 0 <= k < |tokens| ==> tokens[k] != ""
  {
    if |lines| == 0 then []
    else
      var t := LineToken(lines[0], tokenOf);
      (if t.Some? then [t.value] else []) + LinesTokens(lines[1..], tokenOf)
  }

  lemma {:induction false} LinesTokensAppend(a: seq<string>, b: seq<string>, tokenOf: string -> Option<string>)
    ensures LinesTokens(a + b, tokenOf) == LinesTokens(a, tokenOf) + LinesTokens(b, tokenOf)
  {
    if |a| == 0 {
      EmptyAppend(a, b);
    } else {
      var t := LineToken(a[0], tokenOf);
      var head := if t.Some? then [t.value] else [];
      ConsAppend(a, b);
      LinesTokensAppend(a[1..], b, tokenOf);
      AppendAssoc(head, LinesTokens(a[1..], tokenOf), LinesTokens(b, tokenOf));
    }
  }

  /** The tokens of one read: its text is cut at every line feed and each piece filtered. */
  function ReadTokens(chunk: string, tokenOf: string -> Option<string>): seq<string> {
    LinesTokens(Split(chunk, '\n'), tokenOf)
  }

  /** The relay as the route performs it: every read is cut into lines on its own. */
  function PerReadTokens(received: seq<string>, tokenOf: string -> Option<string>): (tokens: seq<string>)
    ensures forall k :: 0 <= k < |tokens| ==> tokens[k] != ""
  {
    if |received| == 0 then [] else ReadTokens(received[0], tokenOf) + PerReadTokens(received[1..], tokenOf)
  }

  /** A read that ends with a line feed. */
  predicate EndsLine(r: string) {
    |r| > 0 && r[|r| - 1] == '\n'
  }

  /**
   * When every read but the last ends with a line feed, no line is cut across reads,
   * and the route's per-read filter gives the tokens of the whole body, as the
   * buffered reader does.
   */
  lemma {:induction false} WholeLineReads(received: seq<string>, tokenOf: string -> Option<string>)
    requires forall k :: 0 <= k < |received| - 1 ==> EndsLine(received[k])
    ensures PerReadTokens(received, tokenOf) == ReadTokens(Concat(received), tokenOf)
    ensures PerReadTokens(received, tokenOf) == BufferedTokens("", received, tokenOf)
    decreases |received|
  {
    BufferedReadsMatchWhole("", received, tokenOf);
    assert "" + Concat(received) == Concat(received);
    if |received| == 0 {
      EmptyReadSilent(tokenOf);
    } else if |received| == 1 {
      var r := received[0];
      assert received[1..] == [];
      assert Concat(received) == r + Concat([]) == r;
      assert PerReadTokens(received, tokenOf) == ReadTokens(r, tokenOf) + PerReadTokens([], tokenOf) == ReadTokens(r, tokenOf);
    } else {
      var r, rest := received[0], Concat(received[1..]);
      assert EndsLine(r);
      var init := EndedReadSplit(r);
      WholeLineReads(received[1..], tokenOf);
      calc {
        PerReadTokens(received, tokenOf);
        ReadTokens(r, tokenOf) + PerReadTokens(received[1..], tokenOf);
        ReadTokens(r, tokenOf) + ReadTokens(rest, tokenOf);
        == { LinesTokensAppend(init, [""], tokenOf); EmptyReadSilent(tokenOf); }
        LinesTokens(init, tokenOf) + ReadTokens(rest, tokenOf);
        == { assert "" + rest == rest; }
        LinesTokens(init, tokenOf) + ReadTokens("" + rest, tokenOf);
        == { CutAtLastLine(r, rest, init, "", tokenOf); }
        ReadTokens(r + rest, tokenOf);
        == { assert Concat(received) == r + rest; }
        ReadTokens(Concat(received), tokenOf);
      }
    }
  }

  /** An empty read, or the empty line after a final line feed, contributes nothing. */
  lemma EmptyReadSilent(tokenOf: string -> Option<string>)
    ensures LinesTokens([""], tokenOf) == []
    ensures ReadTokens("", tokenOf) == []
  {
    assert LineToken("", tokenOf).None?;
    assert LinesTokens([""], tokenOf) == [] + LinesTokens([], tokenOf);
  }

  /** A read that ends with a line feed splits into its lines and an empty last piece. */
  lemma EndedReadSplit(r: string) returns (init: seq<string>)
    requires EndsLine(r)
    ensures Split(r, '\n') == init + [""]
  {
    var a := r[..|r| - 1];
    assert r == a + "\n";
    SplitAppend(a, "\n", '\n');
    var p := Split(a, '\n');
    var last := p[|p| - 1];
    SplitTrailingSeparator(last, '\n');
    assert last + "\n" == last + ['\n'];
    init := p[..|p| - 1] + [last];
  }

  /** Reads are filtered one by one: what a read contributes does not depend on the reads around it. */
  lemma {:induction false} PerReadAppend(a: seq<string>, b: seq<string>, tokenOf: string -> Option<string>)
    ensures PerReadTokens(a + b, tokenOf) == PerReadTokens(a, tokenOf) + PerReadTokens(b, tokenOf)
  {
    if |a| == 0 {
      assert a + b == b;
    } else {
      assert (a + b)[0] == a[0];
      assert (a + b)[1..] == a[1..] + b;
      PerReadAppend(a[1..], b, tokenOf);
    }
  }

  /**
   * The filter on a `data:` line: the payload, with leading white space removed, is
   * dropped when it is `[DONE]`, when it does not parse or when its token is empty,
   * and otherwise gives its token.
   */
  lemma DataLineToken(payload: string, tokenOf: string -> Option<string>)
    ensures var p := TrimStart(payload);
            && (LineToken(DataPrefix + payload, tokenOf).Some? <==> p != "[DONE]" && tokenOf(p).Some? && tokenOf(p).value != "")
            && (LineToken(DataPrefix + payload, tokenOf).Some? ==> LineToken(DataPrefix + payload, tokenOf) == tokenOf(p))
  {
    DataLine(payload);
  }

  /** A line the filter drops is skipped and the lines after it are still read. */
  lemma SkippedLine(line: string, rest: seq<string>, tokenOf: string -> Option<string>)
    requires LineToken(line, tokenOf).None?
    ensures LinesTokens([line] + rest, tokenOf) == LinesTokens(rest, tokenOf)
  {
    assert ([line] + rest)[1..] == rest;
  }

  /** A line carrying the `data:` field: what the filter looks at is everything after the colon. */
  lemma DataLine(payload: string)
    ensures StartsWith(DataPrefix + payload, DataPrefix)
    ensures (DataPrefix + payload)[5..] == payload
  {
    StartsWithAppend(DataPrefix, payload);
  }

  /** One read holding a single line, with or without its line feed, yields that line's token. */
  lemma OneLineRead(line: string, tokenOf: string -> Option<string>)
    requires '\n' !in line
    ensures ReadTokens(line, tokenOf) == LinesTokens([line], tokenOf)
    ensures ReadTokens(line + "\n", tokenOf) == LinesTokens([line], tokenOf)
  {
    SplitNoSeparator(line, '\n');
    SplitTrailingSeparator(line, '\n');
    assert [line] + [""] == [line, ""];
    LinesTokensAppend([line], [""], tokenOf);
    assert LineToken("", tokenOf) == None;
    assert LinesTokens([""], tokenOf) == [] + LinesTokens([], tokenOf);
  }

  lemma PerReadPair(r0: string, r1: string, tokenOf: string -> Option<string>)
    ensures PerReadTokens([r0, r1], tokenOf) == ReadTokens(r0, tokenOf) + ReadTokens(r1, tokenOf)
    ensures Concat([r0, r1]) == r0 + r1
  {
    assert [r0, r1][1..] == [r1];
    assert PerReadTokens([r1], tokenOf) == ReadTokens(r1, tokenOf) + PerReadTokens([], tokenOf);
    assert Concat([r1]) == r1 + Concat([]);
  }

  /**
   * A line split over two reads is lost: the first half does not parse and the second
   * half does not start with `data:`, so the token the whole line carries never arrives,
   * although reading the same bytes in one piece delivers it.
   */
  lemma SplitLineLosesToken(a: string, b: string, t: string, tokenOf: string -> Option<string>)
    ensures && '\n' !in a && '\n' !in b
            && !StartsWith(b, DataPrefix)
            && tokenOf(TrimStart(a)) == None
            && TrimStart(a + b) != "[DONE]" && tokenOf(TrimStart(a + b)) == Some(t) && t != ""
            ==>
            && PerReadTokens([DataPrefix + a, b + "\n"], tokenOf) == []
            && ReadTokens(Concat([DataPrefix + a, b + "\n"]), tokenOf) == [t]
  {
    if && '\n' !in a && '\n' !in b
       && !StartsWith(b, DataPrefix)
       && tokenOf(TrimStart(a)) == None
       && TrimStart(a + b) != "[DONE]" && tokenOf(TrimStart(a + b)) == Some(t) && t != ""
    {
      LineCutAcrossReads(a, b, t, tokenOf);
    }
  }

  /** `SplitLineLosesToken` under its conditions. */
  lemma LineCutAcrossReads(a: string, b: string, t: string, tokenOf: string -> Option<string>)
    requires '\n' !in a && '\n' !in b
    requires !StartsWith(b, DataPrefix)
    requires tokenOf(TrimStart(a)) == None
    requires TrimStart(a + b) != "[DONE]" && tokenOf(TrimStart(a + b)) == Some(t) && t != ""
    ensures PerReadTokens([DataPrefix + a, b + "\n"], tokenOf) == []
    ensures ReadTokens(Concat([DataPrefix + a, b + "\n"]), tokenOf) == [t]
  {
    var r0, r1 := DataPrefix + a, b + "\n";
    var line := DataPrefix + (a + b);
    PerReadPair(r0, r1, tokenOf);
    assert '\n' !in DataPrefix;
    Regroup(DataPrefix, a, b, '\n');
    assert Concat([r0, r1]) == line + "\n";
    DataLine(a);
    DataLine(a + b);
    assert LineToken(r0, tokenOf) == None;
    assert LineToken(b, tokenOf) == None;
    assert LineToken(line, tokenOf) == Some(t);
    OneLineRead(r0, tokenOf);
    OneLineRead(b, tokenOf);
    OneLineRead(line, tokenOf);
    assert LinesTokens([r0], tokenOf) == [] + LinesTokens([], tokenOf);
    assert LinesTokens([b], tokenOf) == [] + LinesTokens([], tokenOf);
    assert LinesTokens([line], tokenOf) == [t] + LinesTokens([], tokenOf);
  }

  lemma Regroup(p: string, a: string, b: string, c: char)
    ensures (p + a) + (b + [c]) == (p + (a + b)) + [c]
  {
  }

  /** The two halves of the chat-completions chunk `{"choices":[{"delta":{"content":"Hi"}}]}`, cut before the content. */
  const SampleHead := "{\"choices\":[{\"delta\":{\"content\":"
  const SampleTail := "\"Hi\"}}]}"

  /** A payload parser that reads the whole sample chunk as a delta carrying "Hi"; every other payload fails. */
  function SampleTokenOf(payload: string): Option<string> {
    if payload == SampleHead + SampleTail then Some("Hi") else None
  }

  /** The concrete case: `data: {"choices":[{"delta":{"content":` in one read and `"Hi"}}]}` plus a line feed in the next. */
  lemma SplitLineSample(a: string, b: string)
    requires a == " " + SampleHead && b == SampleTail
    ensures PerReadTokens([DataPrefix + a, b + "\n"], SampleTokenOf) == []
    ensures ReadTokens(Concat([DataPrefix + a, b + "\n"]), SampleTokenOf) == ["Hi"]
  {
    SampleSplitsBadly(a, b);
    LineCutAcrossReads(a, b, "Hi", SampleTokenOf);
  }

  /** The sample's two halves meet the conditions of `SplitLineLosesToken`. */
  lemma SampleSplitsBadly(a: string, b: string)
    requires a == " " + SampleHead && b == SampleTail
    ensures '\n' !in a && '\n' !in b
    ensures !StartsWith(b, DataPrefix)
    ensures SampleTokenOf(TrimStart(a)) == None
    ensures TrimStart(a + b) != "[DONE]" && SampleTokenOf(TrimStart(a + b)) == Some("Hi")
  {
    SampleHalvesAreLines(a, b);
    SampleTailIsNoField(b);
    SampleFirstHalf(a);
    SampleWholeLine(a, b);
  }

  lemma SampleHalvesAreLines(a: string, b: string)
    requires a == " " + SampleHead && b == SampleTail
    ensures '\n' !in a && '\n' !in b
  {
  }

  lemma SampleFirstHalf(a: string)
    requires a == " " + SampleHead
    ensures SampleTokenOf(TrimStart(a)) == None
  {
    TrimStartOfSpaces(" ", SampleHead);
    assert |SampleHead| != |SampleHead + SampleTail|;
  }

  lemma SampleTailIsNoField(b: string)
    requires b == SampleTail
    ensures !StartsWith(b, DataPrefix)
  {
    assert b[0] != DataPrefix[0];
  }

  lemma SampleWholeLine(a: string, b: string)
    requires a == " " + SampleHead && b == SampleTail
    ensures TrimStart(a + b) != "[DONE]" && SampleTokenOf(TrimStart(a + b)) == Some("Hi")
  {
    assert a + b == " " + (SampleHead + SampleTail);
    TrimStartOfSpaces(" ", SampleHead + SampleTail);
    assert |SampleHead + SampleTail| != |"[DONE]"|;
  }

  /**
   * The relay with a line buffer, as the event-stream format requires: the unfinished
   * last line of each read is kept and continued by the next read; when the body ends
   * the rest is read as a last line.
   */
  function BufferedTokens(carry: string, received: seq<string>, tokenOf: string -> Option<string>): seq<string>
    decreases |received|
  {
    if |received| == 0 then LinesTokens([carry], tokenOf)
    else
      var parts := Split(carry + received[0], '\n');
      LinesTokens(parts[..|parts| - 1], tokenOf) + BufferedTokens(parts[|parts| - 1], received[1..], tokenOf)
  }

  /** One read of the line-buffered reader: the finished lines, then the rest carried into the next reads. */
  lemma BufferedStep(carry: string, received: seq<string>, init: seq<string>, last: string, tokenOf: string -> Option<string>)
    requires |received| > 0
    requires Split(carry + received[0], '\n') == init + [last]
    ensures BufferedTokens(carry, received, tokenOf) == LinesTokens(init, tokenOf) + BufferedTokens(last, received[1..], tokenOf)
  {
    var parts := Split(carry + received[0], '\n');
    assert parts[..|parts| - 1] == init && parts[|parts| - 1] == last;
  }

  /** The pieces of a text cut at line feeds, split into the finished lines and the unfinished last one. */
  lemma LastLine(s: string) returns (init: seq<string>, last: string)
    ensures Split(s, '\n') == init + [last]
    ensures '\n' !in last
  {
    var parts := Split(s, '\n');
    init, last := parts[..|parts| - 1], parts[|parts| - 1];
    assert parts == init + [last];
  }

  /** With the buffer, how the body is cut into reads no longer matters. */
  lemma {:induction false} BufferedReadsMatchWhole(carry: string, received: seq<string>, tokenOf: string -> Option<string>)
    requires '\n' !in carry
    ensures BufferedTokens(carry, received, tokenOf) == ReadTokens(carry + Concat(received), tokenOf)
    decreases |received|
  {
    if |received| == 0 {
      assert carry + Concat(received) == carry;
      SplitNoSeparator(carry, '\n');
    } else {
      var init, last := LastLine(carry + received[0]);
      BufferedReadsMatchWhole(last, received[1..], tokenOf);
      BufferedLink(carry, received, init, last, tokenOf);
    }
  }

  /** The induction step of `BufferedReadsMatchWhole`: one read, given the claim for the reads after it. */
  lemma BufferedLink(carry: string, received: seq<string>, init: seq<string>, last: string, tokenOf: string -> Option<string>)
    requires |received| > 0
    requires Split(carry + received[0], '\n') == init + [last]
    requires BufferedTokens(last, received[1..], tokenOf) == ReadTokens(last + Concat(received[1..]), tokenOf)
    ensures BufferedTokens(carry, received, tokenOf) == ReadTokens(carry + Concat(received), tokenOf)
  {
    var first, rest := carry + received[0], Concat(received[1..]);
    calc {
      BufferedTokens(carry, received, tokenOf);
      == { BufferedStep(carry, received, init, last, tokenOf); }
      LinesTokens(init, tokenOf) + BufferedTokens(last, received[1..], tokenOf);
      ==
      LinesTokens(init, tokenOf) + ReadTokens(last + rest, tokenOf);
      == { CutAtLastLine(first, rest, init, last, tokenOf); }
      ReadTokens(first + rest, tokenOf);
      == { ConcatCons(carry, received); }
      ReadTokens(carry + Concat(received), tokenOf);
    }
  }

  lemma ConcatCons(carry: string, received: seq<string>)
    requires |received| > 0
    ensures carry + Concat(received) == (carry + received[0]) + Concat(received[1..])
  {
    assert Concat(received) == received[0] + Concat(received[1..]);
  }

  /** Reading `first + rest` whole: the finished lines of `first`, then its last line continued by `rest`. */
  lemma CutAtLastLine(first: string, rest: string, init: seq<string>, last: string, tokenOf: string -> Option<string>)
    requires Split(first, '\n') == init + [last]
    ensures ReadTokens(first + rest, tokenOf) == LinesTokens(init, tokenOf) + ReadTokens(last + rest, tokenOf)
  {
    var parts := Split(first, '\n');
    assert parts[..|parts| - 1] == init && parts[|parts| - 1] == last;
    SplitAppend(first, rest, '\n');
    LinesTokensAppend(init, Split(last + rest, '\n'), tokenOf);
  }

  /* ---------- The route ---------- */

  /**
   * The TRIAGE payload: the triage as received with the cleaned order number written
   * over `entities.orderId`; without a triage it is just that entities record.
   */
  function TriagePayload(triage: Option<StreamTriage>, orderId: Option<string>): (p: StreamTriage)
    ensures p.entities.Some? && p.entities.value.orderId == orderId
    ensures triage.Some? ==> p.intent == triage.value.intent && p.language == triage.value.language
    ensures triage.Some? && triage.value.entities.Some? ==> p.entities.value == triage.value.entities.value.(orderId := orderId)
    ensures (triage.None? || triage.value.entities.None?) ==> p.entities.value == Entities(orderId, None, None)
    ensures triage.None? ==> p.intent.None? && p.language.None?
  {
    var entities := if triage.Some? && triage.value.entities.Some? then triage.value.entities.value.(orderId := orderId)
                    else Entities(orderId, None, None);
    if triage.Some? then triage.value.(entities := Some(entities)) else StreamTriage(None, None, Some(entities))
  }

  /**
   * The four messages of the model call, for the answer language and the cleaned order
   * number: the guardrails, the TRIAGE payload, the tool context (empty unless
   * order_status has a clean number) and the user's message, with a missing message
   * sent as the empty string.
   */
  function StreamMessages(message: Option<string>, triage: Option<StreamTriage>, system: string, orderId: Option<string>)
    : (msgs: seq<ChatMessage<StreamTriage>>)
    ensures |msgs| == 4
    ensures msgs[0] == ChatMessage(System, Text(system))
    ensures msgs[1] == ChatMessage(System, TriageJson(TriagePayload(triage, orderId)))
    ensures msgs[2] == ChatMessage(System, ToolContext(ToolInfo(IsOrderStatus(triage), orderId)))
    ensures msgs[2].content.info.Some? <==> IsOrderStatus(triage) && orderId.Some?
    ensures msgs[3] == ChatMessage(User, Text(if message.Some? then message.value else ""))
  {
    var guard := ChatMessage(System, Text(system));
    var payload := ChatMessage(System, TriageJson(TriagePayload(triage, orderId)));
    var tool := ChatMessage(System, ToolContext(ToolInfo(IsOrderStatus(triage), orderId)));
    var user := ChatMessage(User, Text(if message.Some? then message.value else ""));
    var msgs := [guard, payload, tool, user];
    assert msgs[0] == guard && msgs[1] == payload && msgs[2] == tool && msgs[3] == user;
    msgs
  }

  /**
   * The payload the model is given carries the cleaned order number: absent or
   * well-shaped, and a supplied number that was already well-shaped comes through as is.
   */
  lemma ModelSeesCleanedId(message: Option<string>, triage: Option<StreamTriage>, system: string)
    ensures var msgs := StreamMessages(message, triage, system, CleanOrderId(SuppliedId(triage)));
            var sent := msgs[1].content.triage.entities.value.orderId;
            && (sent.Some? ==> WellShaped(sent.value))
            && (SuppliedId(triage).Some? && WellShaped(SuppliedId(triage).value) ==> sent == SuppliedId(triage))
            && (msgs[2].content.info.Some? <==> IsOrderStatus(triage) && sent.Some?)
            && (msgs[2].content.info.Some? ==> msgs[2].content.info.value == GetOrderStatus(sent.value))
  {
    var supplied := SuppliedId(triage);
    CleanAgrees(supplied);
    if supplied.Some? && WellShaped(supplied.value) {
      ReplyRoute.CleanKeepsWellShaped(supplied.value);
    }
  }

  /** How the model's event stream ended: the body was read to its end, or a read failed. */
  datatype StreamEnd = Done | Broken(reason: string)

  /** What the streaming chat-completions call gave back. */
  datatype StreamAnswer =
    | HttpFailure(body: string)                          // `!resp.ok` or no body: the response text
    | Body(received: seq<string>, end: StreamEnd)        // the decoded reads, in order

  /** The route's answer: a text stream, or an error text sent with status 500. */
  datatype Response = Stream(events: seq<StreamEvent>) | ErrorText(body: string)

  /** One `Enqueue` per token, in order. */
  function Enqueues(tokens: seq<string>): (events: seq<StreamEvent>)
    ensures |events| == |tokens|
    ensures forall k :: 0 <= k < |events| ==> events[k] == Enqueue(tokens[k])
    ensures Pieces(events) == tokens
  {
    if |tokens| == 0 then []
    else
      var rest := Enqueues(tokens[1..]);
      assert ([Enqueue(tokens[0])] + rest)[1..] == rest;
      assert [tokens[0]] + tokens[1..] == tokens;
      [Enqueue(tokens[0])] + rest
  }

  /**
   * The relay as the route performs it: every token of the `data:` lines of each read,
   * the reads filtered one by one, then a close when the body ends or an error when a
   * read fails.
   */
  function Relay(received: seq<string>, end: StreamEnd, tokenOf: string -> Option<string>): (events: seq<StreamEvent>)
    ensures |events| >= 1
    ensures Pieces(events) == PerReadTokens(received, tokenOf)
    ensures forall k :: 0 <= k < |events| - 1 ==> events[k].Enqueue? && events[k].piece != ""
    ensures events[|events| - 1] == (if end.Done? then Close else Fail(end.reason))
  {
    var tokens := PerReadTokens(received, tokenOf);
    var last := if end.Done? then Close else Fail(end.reason);
    PiecesAppend(Enqueues(tokens), [last]);
    assert Pieces([last]) == [] + Pieces([]);
    Enqueues(tokens) + [last]
  }

  /** The rule-based mode: the template text, word by word, then the close. */
  method TemplateStream(triage: Option<StreamTriage>) returns (events: seq<StreamEvent>)
    ensures |events| >= 1 && events[|events| - 1] == Close
    ensures Concat(Pieces(events)) == TemplateText(StreamLang(triage), IsOrderStatus(triage), CleanOrderId(SuppliedId(triage)))
    ensures WordStream(events, TemplateText(StreamLang(triage), IsOrderStatus(triage), CleanOrderId(SuppliedId(triage))))
  {
    events := EmitChunks(TemplateText(StreamLang(triage), IsOrderStatus(triage), CleanOrderId(SuppliedId(triage))));
  }

  /**
   * `r` is the rule-based mode's response: the template text for `triage`, sent word by
   * word and closed once, so its pieces join up to the text.
   */
  predicate TemplateResponded(r: Response, triage: Option<StreamTriage>) {
    var text := TemplateText(StreamLang(triage), IsOrderStatus(triage), CleanOrderId(SuppliedId(triage)));
    && r.Stream? && |r.events| >= 1 && r.events[|r.events| - 1] == Close
    && Concat(Pieces(r.events)) == text
    && WordStream(r.events, text)
  }

  /** The rule-based mode's response: the template stream. */
  method TemplateResponse(triage: Option<StreamTriage>) returns (r: Response)
    ensures TemplateResponded(r, triage)
  {
    var events := TemplateStream(triage);
    r := Stream(events);
  }

  /** The model mode once the key is present: an upstream failure's text, or the relayed tokens. */
  function ModelResponse(reply: StreamAnswer, tokenOf: string -> Option<string>): (r: Response)
    ensures reply.HttpFailure? ==> r == ErrorText("OpenAI error: " + reply.body)
    ensures reply.Body? ==> r.Stream? && |r.events| >= 1
                            && Pieces(r.events) == PerReadTokens(reply.received, tokenOf)
                            && r.events[|r.events| - 1] == (if reply.end.Done? then Close else Fail(reply.end.reason))
  {
    match reply
    case HttpFailure(body) => ErrorText("OpenAI error: " + body)
    case Body(received, end) => Stream(Relay(received, end, tokenOf))
  }

  /**
   * `POST /api/support/reply/stream`. `request` is the parsed body or the message of
   * the exception reading it threw; `useTemplates` is `USE_DUMMY_AI`; `answer` is the
   * model call and `tokenOf` the parse of one `data:` payload.
   */
  method Handle(request: Result<(Option<string>, Option<StreamTriage>), string>, useTemplates: bool, hasApiKey: bool,
                answer: seq<ChatMessage<StreamTriage>> -> StreamAnswer, tokenOf: string -> Option<string>)
    returns (r: Response)
    ensures request.Err? ==> r == ErrorText(if request.error == "" then "unknown error" else request.error)
    ensures request.Ok? && useTemplates ==>
              TemplateResponded(r, request.value.1)
    ensures request.Ok? && !useTemplates && !hasApiKey ==> r == ErrorText("Missing OPENAI_API_KEY")
    ensures request.Ok? && !useTemplates && hasApiKey ==>
              var triage := request.value.1;
              r == ModelResponse(answer(StreamMessages(request.value.0, triage, Guardrails(StreamLang(triage)), CleanOrderId(SuppliedId(triage)))), tokenOf)
  {
    if request.Err? {
      r := ErrorText(if request.error == "" then "unknown error" else request.error);
    } else if useTemplates {
      r := TemplateResponse(request.value.1);
    } else if !hasApiKey {
      r := ErrorText("Missing OPENAI_API_KEY");
    } else {
      var triage := request.value.1;
      r := ModelResponse(answer(StreamMessages(request.value.0, triage, Guardrails(StreamLang(triage)), CleanOrderId(SuppliedId(triage)))), tokenOf);
    }
  }
}

=== FILE: text.dfy ===
/**
 * The JavaScript string built-ins the routes rely on, over `seq<char>`:
 * whitespace, ASCII classes, `toUpperCase`/`toLowerCase`, `trim`/`trimStart`,
 * substring search, `startsWith` and `split` with a one-character separator.
 */
module Text {

  /** The WhiteSpace and LineTerminator code points of ECMAScript: what `\s` matches and `trim` removes. */
  predicate IsSpace(c: char) {
    || c == '\t' || c == '\n' || c == '\U{000B}' || c == '\U{000C}' || c == '\r' || c == ' '
    || c == '\U{00A0}' || c == '\U{1680}' || ('\U{2000}' <= c <= '\U{200A}')
    || c == '\U{2028}' || c == '\U{2029}' || c == '\U{202F}' || c == '\U{205F}'
    || c == '\U{3000}' || c == '\U{FEFF}'
  }

  predicate IsDigit(c: char) { '0' <= c <= '9' }

  predicate IsAsciiUpper(c: char) { 'A' <= c <= 'Z' }

  predicate IsAsciiLower(c: char) { 'a' <= c <= 'z' }

  /** The characters `\b` treats as word characters (outside Unicode mode). */
  predicate IsWordChar(c: char) { IsAsciiUpper(c) || IsAsciiLower(c) || IsDigit(c) || c == '_' }

  /** The other case of an ASCII letter; every other character is its own. */
  function SwapAsciiCase(c: char): (d: char)
    ensures IsAsciiUpper(c) <==> IsAsciiLower(d)
    ensures IsAsciiLower(c) <==> IsAsciiUpper(d)
    ensures !IsAsciiUpper(c) && !IsAsciiLower(c) ==> d == c
  {
    if IsAsciiUpper(c) then (c as int + 32) as char
    else if IsAsciiLower(c) then (c as int - 32) as char
    else c
  }

  /** ASCII-only upper-casing, the folding the `i` flag applies. */
  function AsciiUpper(c: char): char {
    if IsAsciiLower(c) then (c as int - 32) as char else c
  }

  function AsciiUpperAll(s: string): (r: string)
    ensures |r| == |s|
    ensures forall k :: 0 <= k < |s| ==> r[k] == AsciiUpper(s[k])
  {
    seq(|s|, k requires 0 <= k < |s| => AsciiUpper(s[k]))
  }

  /**
   * `String.prototype.toUpperCase` on one code point. Covers ASCII, Latin-1 and
   * every character whose upper case is made of ASCII letters (the German sharp s
   * becomes "SS"); any other character is left unchanged.
   */
  function UpperChar(c: char): string {
    if IsAsciiLower(c) then [(c as int - 32) as char]
    else if c == '\U{00B5}' then ['\U{039C}']
    else if c == '\U{00DF}' then "SS"
    else if '\U{00E0}' <= c <= '\U{00FE}' && c != '\U{00F7}' then [(c as int - 32) as char]
    else if c == '\U{00FF}' then ['\U{0178}']
    else if c == '\U{0131}' then "I"
    else if c == '\U{017F}' then "S"
    else if c == '\U{FB00}' then "FF"
    else if c == '\U{FB01}' then "FI"
    else if c == '\U{FB02}' then "FL"
    else if c == '\U{FB03}' then "FFI"
    else if c == '\U{FB04}' then "FFL"
    else if c == '\U{FB05}' || c == '\U{FB06}' then "ST"
    else [c]
  }

  /**
   * `String.prototype.toLowerCase` on one code point. Covers ASCII, Latin-1 and
   * every character whose lower case contains an ASCII letter or one of ä ö ü ß
   * (Kelvin sign, capital sharp s, dotted capital I); any other character is left unchanged.
   */
  function LowerChar(c: char): string {
    if IsAsciiUpper(c) then [(c as int + 32) as char]
    else if '\U{00C0}' <= c <= '\U{00DE}' && c != '\U{00D7}' then [(c as int + 32) as char]
    else if c == '\U{0130}' then ['i', '\U{0307}']
    else if c == '\U{212A}' then "k"
    else if c == '\U{212B}' then ['\U{00E5}']
    else if c == '\U{1E9E}' then ['\U{00DF}']
    else [c]
  }

  /**
   * `String.prototype.toUpperCase`, code point by code point. It never shortens
   * the text, and on ASCII text it is the letter-by-letter ASCII fold.
   */
  function Upper(s: string): (r: string)
    ensures |r| >= |s|
    ensures (forall k :: 0 <= k < |s| ==> s[k] < '\U{0080}') ==> r == AsciiUpperAll(s)
  {
    if |s| == 0 then []
    else
      assert AsciiUpperAll(s) == [AsciiUpper(s[0])] + AsciiUpperAll(s[1..]);
      UpperChar(s[0]) + Upper(s[1..])
  }

  predicate IsAscii(s: string) {
    forall k :: 0 <= k < |s| ==> s[k] < '\U{0080}'
  }

  /** `r` is `s` with each ASCII capital letter lowered in place and every other character kept. */
  predicate LowersInPlace(s: string, r: string) {
    |r| == |s| && forall k :: 0 <= k < |s| ==> r[k] == (if IsAsciiUpper(s[k]) then SwapAsciiCase(s[k]) else s[k])
  }

  /**
   * `String.prototype.toLowerCase`, code point by code point. It never shortens the
   * text, and on ASCII text it lowers the capital letters in place and keeps the rest.
   */
  function Lower(s: string): (r: string)
    ensures |r| >= |s|
    ensures IsAscii(s) ==> LowersInPlace(s, r)
  {
    if |s| == 0 then []
    else
      var head := LowerChar(s[0]);
      var tail := Lower(s[1..]);
      if IsAscii(s) then
        assert IsAscii(s[1..]);
        assert head == [if IsAsciiUpper(s[0]) then SwapAsciiCase(s[0]) else s[0]];
        head + tail
      else head + tail
  }

  lemma {:induction false} UpperAppend(a: string, b: string)
    ensures Upper(a + b) == Upper(a) + Upper(b)
  {
    if |a| == 0 {
      assert a + b == b;
    } else {
      assert (a + b)[1..] == a[1..] + b;
      UpperAppend(a[1..], b);
    }
  }

  lemma {:induction false} LowerAppend(a: string, b: string)
    ensures Lower(a + b) == Lower(a) + Lower(b)
  {
    if |a| == 0 {
      assert a + b == b;
    } else {
      assert (a + b)[1..] == a[1..] + b;
      LowerAppend(a[1..], b);
    }
  }

  /** The lower case of `s` keeps the lower case of each of its characters in place. */
  lemma {:induction false} LowerAt(s: string, k: nat)
    requires k < |s|
    ensures Lower(s) == Lower(s[..k]) + LowerChar(s[k]) + Lower(s[k + 1..])
  {
    CutAt(s, k);
    LowerCons(s[k], s[k + 1..]);
    LowerAppend(s[..k], [s[k]] + s[k + 1..]);
  }

  lemma LowerCons(c: char, t: string)
    ensures Lower([c] + t) == LowerChar(c) + Lower(t)
  {
    assert ([c] + t)[0] == c && ([c] + t)[1..] == t;
  }

  lemma CutAt(s: string, k: nat)
    requires k < |s|
    ensures s == s[..k] + ([s[k]] + s[k + 1..])
  {
  }

  predicate TrimmedStart(s: string) { |s| == 0 || !IsSpace(s[0]) }

  predicate TrimmedEnd(s: string) { |s| == 0 || !IsSpace(s[|s| - 1]) }

  /** `String.prototype.trimStart`. */
  function TrimStart(s: string): (r: string)
    ensures TrimmedStart(r)
    ensures exists k :: 0 <= k <= |s| && r == s[k..] && forall j :: 0 <= j < k ==> IsSpace(s[j])
  {
    if |s| > 0 && IsSpace(s[0]) then
      var r := TrimStart(s[1..]);
      ghost var k :| 0 <= k <= |s[1..]| && r == s[1..][k..] && forall j :: 0 <= j < k ==> IsSpace(s[1..][j]);
      assert r == s[k + 1..];
      r
    else
      assert s == s[0..];
      s
  }

  function TrimEnd(s: string): (r: string)
    ensures TrimmedEnd(r)
    ensures exists k :: 0 <= k <= |s| && r == s[..k] && forall j :: k <= j < |s| ==> IsSpace(s[j])
  {
    if |s| > 0 && IsSpace(s[|s| - 1]) then
      var r := TrimEnd(s[..|s| - 1]);
      ghost var init := s[..|s| - 1];
      ghost var k :| 0 <= k <= |init| && r == init[..k] && forall j :: k <= j < |init| ==> IsSpace(init[j]);
      assert r == s[..k];
      r
    else
      assert s == s[..|s|];
      s
  }

  /** Every character of `s` is white space. */
  predicate AllSpace(s: string) {
    forall j :: 0 <= j < |s| ==> IsSpace(s[j])
  }

  /** `String.prototype.trim`: both ends, with the same whitespace set. */
  function Trim(s: string): (r: string)
    ensures TrimmedStart(r) && TrimmedEnd(r)
    ensures exists a, b :: 0 <= a <= b <= |s| && r == s[a..b] && AllSpace(s[..a]) && AllSpace(s[b..])
  {
    var t := TrimStart(s);
    var r := TrimEnd(t);
    TrimIsSlice(s);
    ghost var n :| 0 <= n <= |t| && r == t[..n] && forall k :: n <= k < |t| ==> IsSpace(t[k]);
    assert |r| > 0 ==> r[0] == t[0];
    r
  }

  /** Trimming both ends keeps a slice of the text with only white space cut off on either side. */
  lemma TrimIsSlice(s: string)
    ensures var r := TrimEnd(TrimStart(s));
            exists a, b :: 0 <= a <= b <= |s| && r == s[a..b] && AllSpace(s[..a]) && AllSpace(s[b..])
  {
    var a := TrimStartCut(s);
    var n := TrimEndCut(TrimStart(s));
    SliceOfSlice(s, a, n);
    assert 0 <= a <= a + n <= |s| && TrimEnd(TrimStart(s)) == s[a..a + n];
  }

  lemma TrimStartCut(s: string) returns (a: nat)
    ensures a <= |s| && TrimStart(s) == s[a..] && AllSpace(s[..a])
  {
    a :| 0 <= a <= |s| && TrimStart(s) == s[a..] && forall j :: 0 <= j < a ==> IsSpace(s[j]);
  }

  lemma TrimEndCut(t: string) returns (n: nat)
    ensures n <= |t| && TrimEnd(t) == t[..n] && AllSpace(t[n..])
  {
    n :| 0 <= n <= |t| && TrimEnd(t) == t[..n] && forall k :: n <= k < |t| ==> IsSpace(t[k]);
    assert forall k :: 0 <= k < |t[n..]| ==> t[n..][k] == t[n + k];
  }

  /** Keeping `n` characters of `s[a..]` is the slice `s[a..a + n]`; what `s[a..]` has after them is what `s` has after `a + n`. */
  lemma SliceOfSlice(s: string, a: nat, n: nat)
    requires a <= |s| && n <= |s| - a
    ensures s[a..][..n] == s[a..a + n]
    ensures s[a..][n..] == s[a + n..]
  {
  }

  /** Trimming twice is trimming once. */
  lemma TrimIdempotent(s: string)
    ensures Trim(Trim(s)) == Trim(s)
  {
    var r := Trim(s);
    assert TrimStart(r) == r;
    assert TrimEnd(r) == r;
  }

  lemma TrimOfTrimmed(s: string)
    requires forall k :: 0 <= k < |s| ==> !IsSpace(s[k])
    ensures Trim(s) == s
  {
    assert TrimStart(s) == s;
    assert TrimEnd(s) == s;
  }

  predicate StartsWith(s: string, prefix: string) {
    |prefix| <= |s| && s[..|prefix|] == prefix
  }

  predicate OccursAt(t: string, w: string, k: nat) {
    k + |w| <= |t| && t[k..k + |w|] == w
  }

  /** `t.includes(w)`: the test a regular expression made of literal alternatives performs. */
  predicate Contains(t: string, w: string) {
    exists k: nat | k <= |t| :: OccursAt(t, w, k)
  }

  predicate ContainsAny(t: string, words: seq<string>) {
    exists j :: 0 <= j < |words| && Contains(t, words[j])
  }

  lemma OccursInMiddle(pre: string, w: string, post: string)
    ensures OccursAt(pre + w + post, w, |pre|) && Contains(pre + w + post, w)
  {
    var t := pre + w + post;
    assert t[|pre|..|pre| + |w|] == w;
    var k: nat := |pre|;
    assert k <= |t| && OccursAt(t, w, k);
  }

  lemma ContainsAtEnd(a: string, w: string)
    ensures Contains(a + w, w)
  {
    assert a + w + "" == a + w;
    OccursInMiddle(a, w, "");
  }

  lemma StartsWithAppend(a: string, b: string)
    ensures StartsWith(a + b, a)
  {
    assert (a + b)[..|a|] == a;
  }

  lemma ContainsInPrefix(a: string, b: string, w: string)
    requires Contains(a, w)
    ensures Contains(a + b, w)
  {
    var k: nat :| k <= |a| && OccursAt(a, w, k);
    assert (a + b)[k..k + |w|] == a[k..k + |w|];
    assert OccursAt(a + b, w, k);
  }

  lemma ContainsInSuffix(a: string, b: string, w: string)
    requires Contains(b, w)
    ensures Contains(a + b, w)
  {
    var k: nat :| k <= |b| && OccursAt(b, w, k);
    assert (a + b)[|a| + k..|a| + k + |w|] == b[k..k + |w|];
    assert OccursAt(a + b, w, |a| + k);
  }

  /** `s.split(sep)` for a one-character separator: every occurrence cuts, empty pieces included. */
  function Split(s: string, sep: char): (parts: seq<string>)
    ensures |parts| >= 1
    ensures forall j :: 0 <= j < |parts| ==> sep !in parts[j]
  {
    if |s| == 0 then [""]
    else
      var rest := Split(s[1..], sep);
      if s[0] == sep then [""] + rest
      else
        assert s[0] != sep && [s[0]] + rest[0] == [s[0]] + rest[0];
        [[s[0]] + rest[0]] + rest[1..]
  }

  /** `split` gives one piece more than there are separators. */
  lemma {:induction false} SplitCount(s: string, sep: char)
    ensures |Split(s, sep)| == multiset(s)[sep] + 1
  {
    if |s| > 0 {
      SplitCount(s[1..], sep);
      assert s == [s[0]] + s[1..];
      assert multiset(s) == multiset{s[0]} + multiset(s[1..]);
    }
  }

  /** `parts.join(sep)`. */
  function Join(parts: seq<string>, sep: char): string {
    if |parts| == 0 then ""
    else if |parts| == 1 then parts[0]
    else parts[0] + [sep] + Join(parts[1..], sep)
  }

  /** Flattening: what the reader of a stream of text chunks receives. */
  function Concat(pieces: seq<string>): string {
    if |pieces| == 0 then "" else pieces[0] + Concat(pieces[1..])
  }

  lemma {:induction false} ConcatAppend(a: seq<string>, b: seq<string>)
    ensures Concat(a + b) == Concat(a) + Concat(b)
  {
    if |a| == 0 {
      assert a + b == b;
    } else {
      assert (a + b)[1..] == a[1..] + b;
      ConcatAppend(a[1..], b);
    }
  }

  /** Splitting and re-joining on the same separator gives the text back. */
  lemma {:induction false} JoinSplit(s: string, sep: char)
    ensures Join(Split(s, sep), sep) == s
  {
    if |s| > 0 {
      var rest := Split(s[1..], sep);
      JoinSplit(s[1..], sep);
      if s[0] != sep {
        var parts := Split(s, sep);
        if |rest| == 1 {
          assert parts == [[s[0]] + rest[0]];
        } else {
          assert parts[1..] == rest[1..];
          assert Join(rest, sep) == rest[0] + [sep] + Join(rest[1..], sep);
        }
      }
    }
  }

  /** Conversely, joining separator-free pieces and splitting again gives the pieces back. */
  lemma {:induction false} SplitJoin(parts: seq<string>, sep: char)
    requires |parts| >= 1
    requires forall j :: 0 <= j < |parts| ==> sep !in parts[j]
    ensures Split(Join(parts, sep), sep) == parts
  {
    if |parts| == 1 {
      SplitNoSeparator(parts[0], sep);
    } else {
      var rest := Join(parts[1..], sep);
      var tail := [sep] + rest;
      assert Split(tail, sep) == [""] + parts[1..] by {
        SplitJoin(parts[1..], sep);
        assert tail[0] == sep && tail[1..] == rest;
      }
      assert Join(parts, sep) == parts[0] + tail;
      assert Split(parts[0] + tail, sep) == [parts[0] + ""] + parts[1..] by {
        assert parts[0] in parts;
        SplitPrefix(parts[0], tail, sep);
      }
      assert parts[0] + "" == parts[0];
      assert [parts[0]] + parts[1..] == parts;
    }
  }

  lemma {:induction false} SplitNoSeparator(s: string, sep: char)
    requires sep !in s
    ensures Split(s, sep) == [s]
  {
    if |s| > 0 {
      assert s[0] in s;
      SplitNoSeparator(s[1..], sep);
      assert [s[0]] + s[1..] == s;
    }
  }

  /** A text that ends with its only separator splits into the text and an empty last piece. */
  lemma {:induction false} SplitTrailingSeparator(s: string, sep: char)
    requires sep !in s
    ensures Split(s + [sep], sep) == [s, ""]
  {
    if |s| == 0 {
      assert s + [sep] == [sep];
      assert [sep][1..] == "";
    } else {
      assert s[0] in s;
      SplitTrailingSeparator(s[1..], sep);
      assert (s + [sep])[1..] == s[1..] + [sep];
      assert [s[0]] + s[1..] == s;
    }
  }

  /** A separator-free prefix glues onto the first piece of what follows it. */
  lemma {:induction false} SplitPrefix(a: string, b: string, sep: char)
    requires sep !in a
    ensures Split(a + b, sep) == [a + Split(b, sep)[0]] + Split(b, sep)[1..]
  {
    var y := Split(b, sep);
    if |a| == 0 {
      assert a + b == b;
      assert a + y[0] == y[0];
      assert [y[0]] + y[1..] == y;
    } else {
      var rest := Split(a[1..] + b, sep);
      assert rest == [a[1..] + y[0]] + y[1..] by {
        SplitPrefix(a[1..], b, sep);
      }
      assert Split(a + b, sep) == [[a[0]] + rest[0]] + rest[1..] by {
        assert a[0] in a;
        assert (a + b)[0] == a[0];
        assert (a + b)[1..] == a[1..] + b;
      }
      assert [a[0]] + (a[1..] + y[0]) == a + y[0];
    }
  }

  /** Joining one more piece appends the separator and the piece. */
  lemma {:induction false} JoinSnoc(parts: seq<string>, x: string, sep: char)
    requires |parts| >= 1
    ensures Join(parts + [x], sep) == Join(parts, sep) + [sep] + x
  {
    if |parts| == 1 {
      assert (parts + [x])[1..] == [x];
    } else {
      assert (parts + [x])[1..] == parts[1..] + [x];
      JoinSnoc(parts[1..], x, sep);
    }
  }

  /**
   * Splitting `a + b` cuts `a` as before, except that its last, unterminated piece is
   * continued by `b`.
   */
  lemma {:induction false} SplitAppend(a: string, b: string, sep: char)
    ensures var p := Split(a, sep);
            Split(a + b, sep) == p[..|p| - 1] + Split(p[|p| - 1] + b, sep)
  {
    if |a| == 0 {
      assert a + b == b;
    } else {
      SplitAppend(a[1..], b, sep);
      if a[0] == sep {
        SplitAppendAtSeparator(a, b, sep);
      } else {
        SplitAppendAtChar(a, b, sep);
      }
    }
  }

  /** One step of `split`: the first character either cuts or joins the first piece. */
  lemma SplitStep(c: char, s: string, sep: char)
    ensures Split([c] + s, sep) ==
              if c == sep then [""] + Split(s, sep) else [[c] + Split(s, sep)[0]] + Split(s, sep)[1..]
  {
    assert ([c] + s)[0] == c && ([c] + s)[1..] == s;
  }

  lemma Uncons(a: string, b: string)
    requires |a| > 0
    ensures a == [a[0]] + a[1..]
    ensures a + b == [a[0]] + (a[1..] + b)
  {
  }

  /** The step of `SplitAppend` when `a` opens with the separator. */
  lemma SplitAppendAtSeparator(a: string, b: string, sep: char)
    requires |a| > 0 && a[0] == sep
    requires var q := Split(a[1..], sep);
             Split(a[1..] + b, sep) == q[..|q| - 1] + Split(q[|q| - 1] + b, sep)
    ensures var p := Split(a, sep);
            Split(a + b, sep) == p[..|p| - 1] + Split(p[|p| - 1] + b, sep)
  {
    var q := Split(a[1..], sep);
    var tail := Split(q[|q| - 1] + b, sep);
    Uncons(a, b);
    SplitStep(sep, a[1..], sep);
    SplitStep(sep, a[1..] + b, sep);
    DropLastAfterHead("", q, tail);
  }

  /** How dropping the last piece commutes with putting a piece in front. */
  lemma DropLastAfterHead(h: string, q: seq<string>, tail: seq<string>)
    requires |q| >= 1
    ensures var p := [h] + q;
            && p[..|p| - 1] == [h] + q[..|q| - 1]
            && p[|p| - 1] == q[|q| - 1]
            && [h] + (q[..|q| - 1] + tail) == p[..|p| - 1] + tail
  {
  }

  /** The step of `SplitAppend` when `a` opens with another character. */
  lemma SplitAppendAtChar(a: string, b: string, sep: char)
    requires |a| > 0 && a[0] != sep
    requires var q := Split(a[1..], sep);
             Split(a[1..] + b, sep) == q[..|q| - 1] + Split(q[|q| - 1] + b, sep)
    ensures var p := Split(a, sep);
            Split(a + b, sep) == p[..|p| - 1] + Split(p[|p| - 1] + b, sep)
  {
    var c := a[0];
    var q := Split(a[1..], sep);
    var r := Split(a[1..] + b, sep);
    var tail := Split(q[|q| - 1] + b, sep);
    Uncons(a, b);
    SplitStep(c, a[1..], sep);
    SplitStep(c, a[1..] + b, sep);
    if |q| == 1 {
      assert q[..0] == [] && [] + tail == tail;
      Uncons([c] + q[0], b);
      assert ([c] + q[0])[0] == c && ([c] + q[0])[1..] == q[0];
      SplitStep(c, q[0] + b, sep);
      assert Split(a, sep)[..0] == [];
    } else {
      assert r[0] == q[0] && r[1..] == q[1..|q| - 1] + tail;
      DropLastAfterHead([c] + q[0], q[1..], tail);
      assert q[1..][..|q| - 2] == q[1..|q| - 1] && q[1..][|q| - 2] == q[|q| - 1];
    }
  }
}

=== FILE: triage_route.dfy ===
/**
 * The triage endpoint: input check, PII masking, then either the rule-based triage
 * or the language model's answer run through the schema and the order-number filter.
 * The HTTP layer, the environment and the model call are parameters.
 */
module TriageRoute {
  import opened Base
  import opened TriageSchema
  import opened TriageRules
  import opened OrderIds

  /** `USE_DUMMY_AI`: the rule-based triage, or the model. */
  datatype Mode = Heuristic | Delegated

  /** What came back from the chat-completions call, as far as the route inspects it. */
  datatype ModelAnswer =
    | HttpFailure(body: string)       // `!resp.ok`: the response text is passed on
    | NoContent                       // no `choices[0].message.content`, or an empty one
    | Unparseable(reason: string)     // `JSON.parse` threw
    | Parsed(raw: RawTriage)          // the content, read as a JSON object

  /** The error bodies the route answers with; every one of them goes out with status 500. */
  datatype TriageError =
    | InvalidInput                    // the body has no non-empty string `message`
    | MissingApiKey
    | UpstreamError(details: string)
    | EmptyAnswer
    | Thrown(reason: string)
    | SchemaFailed(issues: seq<Issue>)

  /** `InputSchema`: a string message of at least one character. */
  predicate ValidMessage(message: Option<string>) {
    message.Some? && |message.value| >= 1
  }

  /** The record the rule-based branch hands to `TriageSchema.parse`. */
  function HeuristicRaw(redacted: string): RawTriage {
    var intent := DetectIntent(redacted);
    var orderId := if intent == OrderStatus then ExtractOrderId(redacted) else None;
    RawTriage(Some(IntentName(intent)), Some("low"), Some(Entities(orderId, None, None)),
              Some(LangName(DetectLanguage(redacted))), Some(0.9))
  }

  /**
   * The rule-based triage. The schema check it passes through can never fail, so the
   * route never throws here; an order number appears only for order_status and is
   * always well-shaped.
   */
  function HeuristicTriage(redacted: string): (t: Triage)
    ensures ParseTriage(HeuristicRaw(redacted), _ => true) == Ok(t)
    ensures t.intent == DetectIntent(redacted) && t.language == DetectLanguage(redacted)
    ensures t.urgency == Low && t.confidence == 0.9
    ensures t.entities.email.None? && t.entities.name.None?
    ensures t.entities.orderId.Some? ==> t.intent == OrderStatus && WellShaped(t.entities.orderId.value)
  {
    var intent := DetectIntent(redacted);
    match ParseTriage(HeuristicRaw(redacted), _ => true)
    case Ok(t) => t
    case Err(_) => assert false; Triage(intent, Low, Entities(None, None, None), De, 0.9)
  }

  /**
   * The tightening step after a successful schema check: for order_status the model's
   * order number is re-filtered (or, if it gave none, one is extracted from the
   * masked message); for any other intent the order number is dropped.
   */
  function Tighten(t: Triage, redacted: string): (r: Triage)
    ensures r == t.(entities := t.entities.(orderId := r.entities.orderId))
    ensures r.entities.orderId.Some? ==> r.intent == OrderStatus && WellShaped(r.entities.orderId.value)
    ensures t.intent != OrderStatus ==> r.entities.orderId.None?
    ensures t.intent == OrderStatus && (t.entities.orderId.None? || t.entities.orderId.value == "") ==>
              r.entities.orderId == ExtractOrderId(redacted)
    ensures t.intent == OrderStatus && t.entities.orderId.Some? && t.entities.orderId.value != "" ==>
              r.entities.orderId == ExtractOrderId(t.entities.orderId.value)
  {
    var orderId :=
      if t.intent != OrderStatus then None
      else if t.entities.orderId.Some? && t.entities.orderId.value != "" then ExtractOrderId(t.entities.orderId.value)
      else ExtractOrderId(redacted);
    t.(entities := t.entities.(orderId := orderId))
  }

  /** `POST /api/support/triage`. */
  function Handle(mode: Mode, hasApiKey: bool, message: Option<string>,
                  classify: string -> ModelAnswer, isEmail: string -> bool): (r: Result<Triage, TriageError>)
    ensures !ValidMessage(message) <==> r == Err(InvalidInput)
    ensures r.Ok? ==> 0.0 <= r.value.confidence <= 1.0
    ensures r.Ok? && r.value.entities.orderId.Some? ==>
              r.value.intent == OrderStatus && WellShaped(r.value.entities.orderId.value)
    ensures ValidMessage(message) && mode == Heuristic ==> r == Ok(HeuristicTriage(Redact(message.value)))
    ensures ValidMessage(message) && mode == Delegated && !hasApiKey ==> r == Err(MissingApiKey)
  {
    if !ValidMessage(message) then Err(InvalidInput)
    else HandleMasked(mode, hasApiKey, Redact(message.value), classify, isEmail)
  }

  /** Everything after the masking step, which is all that sees the message. */
  function HandleMasked(mode: Mode, hasApiKey: bool, redacted: string,
                        classify: string -> ModelAnswer, isEmail: string -> bool): (r: Result<Triage, TriageError>)
    ensures r != Err(InvalidInput)
    ensures r.Ok? ==> 0.0 <= r.value.confidence <= 1.0
    ensures r.Ok? && r.value.entities.orderId.Some? ==>
              r.value.intent == OrderStatus && WellShaped(r.value.entities.orderId.value)
    ensures mode == Heuristic ==> r == Ok(HeuristicTriage(redacted))
    ensures mode == Delegated && !hasApiKey ==> r == Err(MissingApiKey)
    ensures mode == Delegated && hasApiKey ==>
              var answer := classify(redacted);
              && (answer.HttpFailure? ==> r == Err(UpstreamError(answer.body)))
              && (answer.NoContent? ==> r == Err(EmptyAnswer))
              && (answer.Unparseable? ==> r == Err(Thrown(answer.reason)))
              && (answer.Parsed? && ParseTriage(answer.raw, isEmail).Err? ==>
                    r == Err(SchemaFailed(ParseTriage(answer.raw, isEmail).error)))
              && (answer.Parsed? && ParseTriage(answer.raw, isEmail).Ok? ==>
                    r == Ok(Tighten(ParseTriage(answer.raw, isEmail).value, redacted)))
  {
    if mode == Heuristic then Ok(HeuristicTriage(redacted))
    else if !hasApiKey then Err(MissingApiKey)
    else
      match classify(redacted)
      case HttpFailure(body) => Err(UpstreamError(body))
      case NoContent => Err(EmptyAnswer)
      case Unparseable(reason) => Err(Thrown(reason))
      case Parsed(raw) =>
        match ParseTriage(raw, isEmail)
        case Err(issues) => Err(SchemaFailed(issues))
        case Ok(t) => Ok(Tighten(t, redacted))
  }

  /**
   * Only the masked message reaches the model and the rules: two messages that mask to
   * the same text get the same answer, whatever the model is.
   */
  lemma OnlyMaskedTextMatters(mode: Mode, hasApiKey: bool, m1: string, m2: string,
                              classify: string -> ModelAnswer, isEmail: string -> bool)
    requires |m1| >= 1 && |m2| >= 1
    ensures Redact(m1) == Redact(m2) ==>
              Handle(mode, hasApiKey, Some(m1), classify, isEmail) == Handle(mode, hasApiKey, Some(m2), classify, isEmail)
  {
    assert Handle(mode, hasApiKey, Some(m1), classify, isEmail) == HandleMasked(mode, hasApiKey, Redact(m1), classify, isEmail);
    assert Handle(mode, hasApiKey, Some(m2), classify, isEmail) == HandleMasked(mode, hasApiKey, Redact(m2), classify, isEmail);
  }

  /**
   * A model answer that passes the schema is returned as the model gave it, except for
   * the order number; a schema failure is reported with its issues.
   */
  lemma DelegatedAnswer(message: string, classify: string -> ModelAnswer, isEmail: string -> bool)
    requires |message| >= 1
    ensures var answer := classify(Redact(message));
            var r := Handle(Delegated, true, Some(message), classify, isEmail);
            answer.Parsed? ==>
              && (ParseTriage(answer.raw, isEmail).Err? ==> r == Err(SchemaFailed(ParseTriage(answer.raw, isEmail).error)))
              && (ParseTriage(answer.raw, isEmail).Ok? ==>
                    && r == Ok(Tighten(ParseTriage(answer.raw, isEmail).value, Redact(message)))
                    && r.value.(entities := r.value.entities.(orderId := None))
                       == ParseTriage(answer.raw, isEmail).value.(entities := ParseTriage(answer.raw, isEmail).value.entities.(orderId := None)))
  {
    var answer := classify(Redact(message));
    if answer.Parsed? {
      DelegatedParsed(message, answer.raw, classify, isEmail);
    }
  }

  /** `DelegatedAnswer` for a model answer already known to be the object `raw`. */
  lemma DelegatedParsed(message: string, raw: RawTriage, classify: string -> ModelAnswer, isEmail: string -> bool)
    requires |message| >= 1
    requires classify(Redact(message)) == Parsed(raw)
    ensures var r := Handle(Delegated, true, Some(message), classify, isEmail);
            && (ParseTriage(raw, isEmail).Err? ==> r == Err(SchemaFailed(ParseTriage(raw, isEmail).error)))
            && (ParseTriage(raw, isEmail).Ok? ==>
                  && r == Ok(Tighten(ParseTriage(raw, isEmail).value, Redact(message)))
                  && r.value.(entities := r.value.entities.(orderId := None))
                     == ParseTriage(raw, isEmail).value.(entities := ParseTriage(raw, isEmail).value.entities.(orderId := None)))
  {
    var redacted := Redact(message);
    var r := Handle(Delegated, true, Some(message), classify, isEmail);
    assert r == HandleMasked(Delegated, true, redacted, classify, isEmail);
    match ParseTriage(raw, isEmail)
    case Err(issues) =>
      assert r == Err(SchemaFailed(issues));
    case Ok(t) =>
      var tight := Tighten(t, redacted);
      assert r == Ok(tight);
      assert tight == t.(entities := t.entities.(orderId := tight.entities.orderId));
  }
}

=== FILE: triage_rules.dfy ===
/**
 * The rule-based half of the triage route: PII masking, intent and language
 * detection by keyword, and order-number extraction with its plausibility filter.
 */
module TriageRules {
  import opened Base
  import opened Text
  import opened Regex
  import opened OrderIds
  import opened TriageSchema

  /* ---------- Character classes of the patterns ---------- */

  const Digit := Range('0', '9')
  const Letter := Range('A', 'Z')
  const LetterOrDigit := Union(Letter, Digit)
  /** `[A-Z0-9-]` */
  const IdClass := Union(LetterOrDigit, Single('-'))
  /** `[A-Z0-9._%+-]` */
  const EmailLocal := Union(LetterOrDigit, Union(Single('.'), Union(Single('_'), Union(Single('%'), Union(Single('+'), Single('-'))))))
  /** `[A-Z0-9.-]` */
  const EmailDomain := Union(LetterOrDigit, Union(Single('.'), Single('-')))
  /** `[0-9\s()\-‐‑‒–—]` */
  const PhoneBody := Union(Digit, Union(Space, Union(Single('('), Union(Single(')'), Union(Single('-'), Range('\U{2010}', '\U{2014}'))))))
  /** `[:\s-]` */
  const Separator := Union(Single(':'), Union(Space, Single('-')))

  /* ---------- PII masking ---------- */

  /** `/[A-Z0-9._%+-]+@[A-Z0-9.-]+\.[A-Z]{2,}/gi` */
  const EmailPattern := Pattern([[Repeat(EmailLocal, 1, Unbounded), Once(Single('@')), Repeat(EmailDomain, 1, Unbounded), Once(Single('.')), Repeat(Letter, 2, Unbounded)]], true)

  /** `/\+?\d[0-9\s()\-‐‑‒–—]{6,}\d/g` */
  const PhonePattern := Pattern([[Repeat(Single('+'), 0, AtMost(1)), Once(Digit), Repeat(PhoneBody, 6, Unbounded), Once(Digit)]], false)

  /** `/\b[A-Z]{2}\d{2}[A-Z0-9]{1,30}\b/g`, case-sensitive */
  const IbanPattern := Pattern([[WordBoundary, Repeat(Letter, 2, AtMost(2)), Repeat(Digit, 2, AtMost(2)), Repeat(LetterOrDigit, 1, AtMost(30)), WordBoundary]], false)

  /**
   * `redactPII`: e-mail addresses, then phone numbers, then IBAN-like tokens are
   * masked. Text without an `@` and without a digit has nothing to mask and
   * passes through unchanged.
   */
  function Redact(text: string): (r: string)
    ensures '@' !in text && (forall k :: 0 <= k < |text| ==> !IsDigit(text[k])) ==> r == text
  {
    var noEmail := ReplaceAll(EmailPattern, text, "<email>");
    var noPhone := ReplaceAll(PhonePattern, noEmail, "<phone>");
    var r := ReplaceAll(IbanPattern, noPhone, "<iban>");
    if '@' !in text && (forall k :: 0 <= k < |text| ==> !IsDigit(text[k])) then
      PlainTextUnmasked(text);
      r
    else r
  }

  lemma EmailNeedsAt(s: string, q: nat)
    requires q <= |s| && MatchAt(EmailPattern, s, q).Some?
    ensures '@' in s
  {
    var m := MatchAt(EmailPattern, s, q).value;
    var items := EmailPattern.alts[0];
    assert Parses(items, true, s, q, m.ends);
    assert items[1..][0] == Once(Single('@'));
    assert Parses(items[1..], true, s, m.ends[0], m.ends[1..]);
    assert s[m.ends[0]] == '@';
  }

  lemma PhoneNeedsDigit(s: string, q: nat)
    requires q <= |s| && MatchAt(PhonePattern, s, q).Some?
    ensures exists k :: 0 <= k < |s| && IsDigit(s[k])
  {
    var m := MatchAt(PhonePattern, s, q).value;
    var items := PhonePattern.alts[0];
    assert Parses(items, false, s, q, m.ends);
    assert items[1..][0] == Once(Digit);
    assert Parses(items[1..], false, s, m.ends[0], m.ends[1..]);
    assert IsDigit(s[m.ends[0]]);
  }

  lemma IbanNeedsDigit(s: string, q: nat)
    requires q <= |s| && MatchAt(IbanPattern, s, q).Some?
    ensures exists k :: 0 <= k < |s| && IsDigit(s[k])
  {
    var m := MatchAt(IbanPattern, s, q).value;
    var items := IbanPattern.alts[0];
    assert Parses(items, false, s, q, m.ends);
    assert Parses(items[1..], false, s, m.ends[0], m.ends[1..]);
    assert items[1..][1..][0] == Repeat(Digit, 2, AtMost(2));
    assert Parses(items[1..][1..], false, s, m.ends[1], m.ends[2..]);
    assert IsDigit(s[m.ends[1]]);
  }

  /** None of the three patterns matches text without an `@` and without a digit. */
  lemma PlainTextUnmasked(text: string)
    requires '@' !in text
    requires forall k :: 0 <= k < |text| ==> !IsDigit(text[k])
    ensures ReplaceAll(EmailPattern, text, "<email>") == text
    ensures ReplaceAll(PhonePattern, text, "<phone>") == text
    ensures ReplaceAll(IbanPattern, text, "<iban>") == text
  {
    forall q | 0 <= q <= |text|
      ensures MatchAt(EmailPattern, text, q).None?
    {
      if MatchAt(EmailPattern, text, q).Some? {
        EmailNeedsAt(text, q);
      }
    }
    assert ReplaceAll(EmailPattern, text, "<email>") == text;
    forall q | 0 <= q <= |text|
      ensures MatchAt(PhonePattern, text, q).None?
    {
      if MatchAt(PhonePattern, text, q).Some? {
        PhoneNeedsDigit(text, q);
      }
    }
    assert ReplaceAll(PhonePattern, text, "<phone>") == text;
    forall q | 0 <= q <= |text|
      ensures MatchAt(IbanPattern, text, q).None?
    {
      if MatchAt(IbanPattern, text, q).Some? {
        IbanNeedsDigit(text, q);
      }
    }
  }

  /* ---------- Intent ---------- */

  const CancellationWords := ["widerruf", "storno", "cancel", "refund", "return"]
  const OrderWords := ["bestell", "order", "status", "track", "sendung", "shipment", "delivery", "tracking"]
  const TechnicalWords := ["technik", "error", "bug", "crash", "stürzt", "problem", "issue", "fault"]

  /**
   * `detectIntent`: keyword families on the lower-cased text, first family that
   * occurs wins. A cancellation keyword always wins, an order keyword wins over a
   * technical one, each intent other than
   * `other` comes with a keyword of its family, and `other` means none occurs.
   */
  function DetectIntent(text: string): (r: Intent)
    ensures ContainsAny(Lower(text), CancellationWords) ==> r == Cancellation
    ensures r == Cancellation ==> ContainsAny(Lower(text), CancellationWords)
    ensures !ContainsAny(Lower(text), CancellationWords) && ContainsAny(Lower(text), OrderWords) ==> r == OrderStatus
    ensures r == OrderStatus ==> ContainsAny(Lower(text), OrderWords)
    ensures r == Technical ==> ContainsAny(Lower(text), TechnicalWords)
    ensures r == Other <==> !ContainsAny(Lower(text), CancellationWords + OrderWords + TechnicalWords)
  {
    FamiliesContain(Lower(text));
    var t := Lower(text);
    if ContainsAny(t, CancellationWords) then Cancellation
    else if ContainsAny(t, OrderWords) then OrderStatus
    else if ContainsAny(t, TechnicalWords) then Technical
    else Other
  }

  /** A text contains a word of the three families together exactly when it contains a word of one of them. */
  lemma FamiliesContain(t: string)
    ensures ContainsAny(t, CancellationWords + OrderWords + TechnicalWords)
            <==> ContainsAny(t, CancellationWords) || ContainsAny(t, OrderWords) || ContainsAny(t, TechnicalWords)
  {
    var all := CancellationWords + OrderWords + TechnicalWords;
    if ContainsAny(t, all) {
      var j :| 0 <= j < |all| && Contains(t, all[j]);
      if j < 5 {
        assert all[j] == CancellationWords[j];
      } else if j < 13 {
        assert all[j] == OrderWords[j - 5];
      } else {
        assert all[j] == TechnicalWords[j - 13];
      }
    }
    if ContainsAny(t, CancellationWords) {
      var j :| 0 <= j < 5 && Contains(t, CancellationWords[j]);
      assert all[j] == CancellationWords[j];
    } else if ContainsAny(t, OrderWords) {
      var j :| 0 <= j < 8 && Contains(t, OrderWords[j]);
      assert all[j + 5] == OrderWords[j];
    } else if ContainsAny(t, TechnicalWords) {
      var j :| 0 <= j < 8 && Contains(t, TechnicalWords[j]);
      assert all[j + 13] == TechnicalWords[j];
    }
  }

  /** The priority order of the keyword families. */
  function Rank(i: Intent): nat {
    match i
    case Other => 0
    case Technical => 1
    case OrderStatus => 2
    case Cancellation => 3
  }

  lemma ContainsAnyAppend(x: string, y: string, words: seq<string>)
    requires ContainsAny(x, words) || ContainsAny(y, words)
    ensures ContainsAny(x + y, words)
  {
    var j :| 0 <= j < |words| && (Contains(x, words[j]) || Contains(y, words[j]));
    if Contains(x, words[j]) {
      ContainsInPrefix(x, y, words[j]);
    } else {
      ContainsInSuffix(x, y, words[j]);
    }
  }

  /**
   * More text never lowers the intent: a message containing a part classified as
   * cancellation is a cancellation, one containing an order part is at least order_status.
   */
  lemma IntentMonotone(a: string, b: string)
    ensures Rank(DetectIntent(a)) <= Rank(DetectIntent(a + b))
    ensures Rank(DetectIntent(b)) <= Rank(DetectIntent(a + b))
  {
    LowerAppend(a, b);
    var x, y := Lower(a), Lower(b);
    if ContainsAny(x, CancellationWords) || ContainsAny(y, CancellationWords) {
      ContainsAnyAppend(x, y, CancellationWords);
    }
    if ContainsAny(x, OrderWords) || ContainsAny(y, OrderWords) {
      ContainsAnyAppend(x, y, OrderWords);
    }
    if ContainsAny(x, TechnicalWords) || ContainsAny(y, TechnicalWords) {
      ContainsAnyAppend(x, y, TechnicalWords);
    }
  }

  lemma {:induction false} LowerOfPlainAscii(s: string)
    requires forall k :: 0 <= k < |s| ==> s[k] < '\U{0080}' && !IsAsciiUpper(s[k])
    ensures Lower(s) == s
  {
    if |s| > 0 {
      LowerOfPlainAscii(s[1..]);
      assert [s[0]] + s[1..] == s;
    }
  }

  /** Cancellation outranks order_status: "cancel my order" is a cancellation. */
  lemma CancelMyOrder(t: string)
    requires t == "cancel my order"
    ensures DetectIntent(t) == Cancellation
  {
    CancelMyOrderIsLower(t);
    CancelMyOrderHasCancel(t);
    assert ContainsAny(Lower(t), CancellationWords);
  }

  lemma CancelMyOrderIsLower(t: string)
    requires t == "cancel my order"
    ensures Lower(t) == t
  {
    LowerOfPlainAscii(t);
  }

  lemma CancelMyOrderHasCancel(t: string)
    requires t == "cancel my order"
    ensures ContainsAny(t, CancellationWords)
  {
    assert OccursAt(t, CancellationWords[2], 0) by {
      assert t[0..6] == "cancel";
    }
    assert Contains(t, CancellationWords[2]);
  }

  /** A word whose first letter sits at no usable position does not occur. */
  lemma {:induction false} AbsentByFirstChar(t: string, w: string)
    requires |w| > 0
    requires forall k :: 0 <= k && k + |w| <= |t| ==> t[k] != w[0]
    ensures !Contains(t, w)
  {
    forall k: nat | k <= |t|
      ensures !OccursAt(t, w, k)
    {
      if k + |w| <= |t| {
        assert t[k..k + |w|][0] == t[k];
      }
    }
  }

  /** The test is a substring test: "border" counts as an order term. */
  lemma BorderIsAnOrderTerm(t: string)
    requires t == "border"
    ensures DetectIntent(t) == OrderStatus
  {
    assert Lower(t) == t by {
      LowerOfPlainAscii(t);
    }
    assert !ContainsAny(t, CancellationWords) by {
      forall j | 0 <= j < |CancellationWords|
        ensures !Contains(t, CancellationWords[j])
      {
        AbsentByFirstChar(t, CancellationWords[j]);
      }
    }
    assert ContainsAny(t, OrderWords) by {
      assert t[1..6] == OrderWords[1];
      assert OccursAt(t, OrderWords[1], 1);
    }
  }

  /* ---------- Language ---------- */

  const GermanHits := ["ä", "ö", "ü", "ß", "bestell", "auftrag", "widerruf", "storno", "retoure", "rücksend", "liefer", "paket", "versand"]
  const EnglishHits := ["order", "cancel", "return", "refund", "shipment", "delivery", "tracking"]

  /** `/[äöüß]/i` outside Unicode mode: the sharp s has no one-character upper case, so it matches only itself. */
  predicate IsUmlaut(c: char) {
    c in "äÄöÖüÜß"
  }

  predicate HasUmlaut(text: string) {
    exists k :: 0 <= k < |text| && IsUmlaut(text[k])
  }

  /**
   * `detectLanguage`: `de` is only answered for a text with a German hit, and an
   * umlaut in a text without English hits always gives `de`.
   */
  function DetectLanguage(text: string): (r: Lang)
    ensures r == De ==> ContainsAny(Lower(text), GermanHits)
    ensures HasUmlaut(text) && !ContainsAny(Lower(text), EnglishHits) ==> r == De
  {
    var t := Lower(text);
    var de := ContainsAny(t, GermanHits);
    var en := ContainsAny(t, EnglishHits);
    if de && !en then De
    else if en && !de then En
    else if HasUmlaut(text) then
      UmlautIsGermanHit(text);
      De
    else En
  }

  /** Lower-casing an umlaut gives one of the first four German hits. */
  lemma UmlautLowers(c: char) returns (j: nat)
    requires IsUmlaut(c)
    ensures j < 4 && LowerChar(c) == GermanHits[j]
  {
    var lc := LowerChar(c);
    j := if lc == "ä" then 0 else if lc == "ö" then 1 else if lc == "ü" then 2 else 3;
  }

  /** An umlaut in the text is already a German hit once the text is lower-cased. */
  lemma UmlautIsGermanHit(text: string)
    requires HasUmlaut(text)
    ensures ContainsAny(Lower(text), GermanHits)
  {
    var k :| 0 <= k < |text| && IsUmlaut(text[k]);
    LowerAt(text, k);
    var pre := Lower(text[..k]);
    var j := UmlautLowers(text[k]);
    OccursInMiddle(pre, GermanHits[j], Lower(text[k + 1..]));
    assert Contains(Lower(text), GermanHits[j]);
  }

  /**
   * The decision table: German hits alone give `de`, English hits alone give `en`,
   * neither gives `en`, and with both the umlaut test decides.
   */
  lemma LanguageTable(text: string)
    ensures var t := Lower(text);
            var de := ContainsAny(t, GermanHits);
            var en := ContainsAny(t, EnglishHits);
            && (de && !en ==> DetectLanguage(text) == De)
            && (en && !de ==> DetectLanguage(text) == En)
            && (!de && !en ==> DetectLanguage(text) == En)
            && (de && en ==> (DetectLanguage(text) == De <==> HasUmlaut(text)))
  {
    if HasUmlaut(text) {
      UmlautIsGermanHit(text);
    }
  }

  /* ---------- Order numbers ---------- */

  /** A character an extracted candidate may hold: `[A-Z0-9-]` under the `i` flag. */
  predicate IsCandidateChar(c: char) {
    IsAsciiUpper(c) || IsAsciiLower(c) || IsDigit(c) || c == '-'
  }

  predicate IsCandidate(s: string) {
    forall k :: 0 <= k < |s| ==> IsCandidateChar(s[k])
  }

  /** `[A-Z0-9][A-Z0-9-]*\d[A-Z0-9-]{min,}`: the order-number group both patterns capture. */
  function IdGroup(min: nat): seq<Item> {
    [Once(LetterOrDigit), Repeat(IdClass, 0, Unbounded), Once(Digit), Repeat(IdClass, min, Unbounded)]
  }

  /** The keyword alternatives of `(bestell(?:ung)?|order(?:-?id)?|auftrag(?:s)?nr\.?|ord(?:er)?\s*#?)`, in backtracking order. */
  const KeywordHeads: seq<seq<Item>> := [
    Literal("bestellung"), Literal("bestell"),
    Literal("order-id"), Literal("orderid"), Literal("order"),
    Literal("auftragsnr."), Literal("auftragsnr"), Literal("auftragnr."), Literal("auftragnr"),
    Literal("order") + [Repeat(Space, 0, Unbounded), Repeat(Single('#'), 0, AtMost(1))],
    Literal("ord") + [Repeat(Space, 0, Unbounded), Repeat(Single('#'), 0, AtMost(1))]
  ]

  /** `/(keyword)[:\s-]*([A-Z0-9][A-Z0-9-]*\d[A-Z0-9-]*)/i` */
  const KeywordPattern := Pattern(WithTail(KeywordHeads, KeywordTail), true)

  /** `[:\s-]*` followed by the captured group. */
  const KeywordTail := [Repeat(Separator, 0, Unbounded)] + IdGroup(0)

  /** Every head followed by the same tail, in the same order. */
  function WithTail(heads: seq<seq<Item>>, tail: seq<Item>): (alts: seq<seq<Item>>)
    ensures |alts| == |heads|
    ensures forall j :: 0 <= j < |heads| ==> alts[j] == heads[j] + tail
  {
    if |heads| == 0 then [] else [heads[0] + tail] + WithTail(heads[1..], tail)
  }

  /** `/\b([A-Z0-9][A-Z0-9-]*\d[A-Z0-9-]{3,})\b/i` */
  const TokenPattern := Pattern([[WordBoundary] + IdGroup(3) + [WordBoundary]], true)

  lemma {:induction false} ParsesSuffix(a: seq<Item>, b: seq<Item>, icase: bool, s: string, i: nat, ends: seq<nat>)
    requires Parses(a + b, icase, s, i, ends)
    ensures |ends| == |a| + |b|
    ensures Parses(b, icase, s, EndOf(i, ends[..|a|]), ends[|a|..])
    decreases |a|
  {
    if |a| == 0 {
      assert a + b == b;
      assert ends[|a|..] == ends;
    } else {
      assert (a + b)[1..] == a[1..] + b;
      ParsesSuffix(a[1..], b, icase, s, ends[0], ends[1..]);
      assert ends[1..][|a| - 1..] == ends[|a|..];
    }
  }

  lemma InIdClass(c: char)
    ensures InClass(IdClass, c) <==> IsAsciiUpper(c) || IsDigit(c) || c == '-'
  {
    assert InClass(IdClass, c) == (InClass(LetterOrDigit, c) || c == '-');
    assert InClass(LetterOrDigit, c) == (InClass(Letter, c) || InClass(Digit, c));
  }

  lemma AcceptsIdClass(c: char)
    requires Accepts(IdClass, true, c)
    ensures IsCandidateChar(c)
  {
    var d := SwapAsciiCase(c);
    InIdClass(c);
    InIdClass(d);
  }

  lemma AcceptsDigit(c: char)
    requires Accepts(Digit, true, c)
    ensures IsDigit(c)
  {
  }

  /** Whatever the group captures is candidate text with a digit and at least `2 + min` characters. */
  lemma GroupShape(min: nat, rest: seq<Item>, s: string, g: nat, te: seq<nat>)
    requires Parses(IdGroup(min) + rest, true, s, g, te)
    ensures |te| >= 4 && g + 2 + min <= te[3] <= |s|
    ensures IsCandidate(s[g..te[3]]) && HasDigit(s[g..te[3]])
  {
    var items := IdGroup(min) + rest;
    assert items[0] == Once(LetterOrDigit);
    assert items[1..][0] == Repeat(IdClass, 0, Unbounded);
    assert items[1..][1..][0] == Once(Digit);
    assert items[1..][1..][1..][0] == Repeat(IdClass, min, Unbounded);
    assert Parses(items[1..], true, s, te[0], te[1..]);
    assert Parses(items[1..][1..], true, s, te[1], te[2..]);
    assert Parses(items[1..][1..][1..], true, s, te[2], te[3..]);
    assert forall q :: g <= q < te[0] ==> Accepts(LetterOrDigit, true, s[q]);
    assert forall q :: te[0] <= q < te[1] ==> Accepts(IdClass, true, s[q]);
    assert forall q :: te[2] <= q < te[3] ==> Accepts(IdClass, true, s[q]);
    AcceptsDigit(s[te[1]]);
    forall q | g <= q < te[3]
      ensures IsCandidateChar(s[q])
    {
      if q < te[0] {
        assert Accepts(IdClass, true, s[q]);
      } else if q == te[1] {
        assert IsDigit(s[q]);
      }
      AcceptsIdClass(s[q]);
    }
    assert s[g..te[3]][te[1] - g] == s[te[1]];
  }

  /** The group after any head and the separator run is candidate text with a digit. */
  lemma GroupAfterHead(head: seq<Item>, text: string, start: nat, ends: seq<nat>)
    requires Parses(head + KeywordTail, true, text, start, ends)
    ensures var n := |head|;
            && |ends| == n + 5
            && ends[n] + 2 <= ends[n + 4] <= |text|
            && IsCandidate(text[ends[n]..ends[n + 4]])
            && HasDigit(text[ends[n]..ends[n + 4]])
  {
    var sep := head + [Repeat(Separator, 0, Unbounded)];
    var n := |head|;
    assert head + KeywordTail == sep + IdGroup(0);
    ParsesSuffix(sep, IdGroup(0), true, text, start, ends);
    assert EndOf(start, ends[..n + 1]) == ends[n];
    assert IdGroup(0) + [] == IdGroup(0);
    GroupShape(0, [], text, ends[n], ends[n + 1..]);
  }

  lemma KeywordGroup(text: string, m: Match)
    requires m.alt < |KeywordPattern.alts|
    requires Parses(KeywordPattern.alts[m.alt], true, text, m.start, m.ends)
    ensures var n := |KeywordHeads[m.alt]|;
            && |m.ends| == n + 5
            && m.ends[n] + 2 <= m.ends[n + 4] <= |text|
            && IsCandidate(text[m.ends[n]..m.ends[n + 4]])
            && HasDigit(text[m.ends[n]..m.ends[n + 4]])
  {
    GroupAfterHead(KeywordHeads[m.alt], text, m.start, m.ends);
  }

  lemma TokenGroup(text: string, m: Match)
    requires m.alt < |TokenPattern.alts|
    requires Parses(TokenPattern.alts[m.alt], true, text, m.start, m.ends)
    ensures |m.ends| == 6
    ensures m.ends[0] + 5 <= m.ends[4] <= |text|
    ensures IsCandidate(text[m.ends[0]..m.ends[4]]) && HasDigit(text[m.ends[0]..m.ends[4]])
  {
    var items := [WordBoundary] + IdGroup(3) + [WordBoundary];
    assert items == [WordBoundary] + (IdGroup(3) + [WordBoundary]);
    ParsesSuffix([WordBoundary], IdGroup(3) + [WordBoundary], true, text, m.start, m.ends);
    GroupShape(3, [WordBoundary], text, m.ends[0], m.ends[1..]);
  }

  /** The capture of the keyword pattern (`kw?.[2]`). */
  function KeywordCandidate(text: string): (r: Option<string>)
    ensures r.Some? ==> IsCandidate(r.value) && HasDigit(r.value) && |r.value| >= 2
  {
    match Search(KeywordPattern, text, 0)
    case None => None
    case Some(m) =>
      var n := |KeywordHeads[m.alt]|;
      KeywordGroup(text, m);
      Some(text[m.ends[n]..m.ends[n + 4]])
  }

  /** The capture of the bare-token pattern (`tok?.[1]`). */
  function TokenCandidate(text: string): (r: Option<string>)
    ensures r.Some? ==> IsCandidate(r.value) && HasDigit(r.value) && |r.value| >= 5
  {
    match Search(TokenPattern, text, 0)
    case None => None
    case Some(m) =>
      TokenGroup(text, m);
      Some(text[m.ends[0]..m.ends[4]])
  }

  /** The keyword capture if there is one, the bare token otherwise. */
  function Candidate(text: string): (r: Option<string>)
    ensures r.Some? ==> IsCandidate(r.value) && HasDigit(r.value) && |r.value| >= 2
  {
    var kw := KeywordCandidate(text);
    if kw.Some? then kw else TokenCandidate(text)
  }

  /** On candidate text `toUpperCase` is the ASCII fold, so it lands in `[A-Z0-9-]` and keeps the digit. */
  lemma UpperOfCandidate(c: string)
    requires IsCandidate(c)
    ensures Upper(c) == AsciiUpperAll(c)
    ensures |Upper(c)| == |c| && AllIdChars(Upper(c))
    ensures HasDigit(c) ==> HasDigit(Upper(c))
  {
    if HasDigit(c) {
      var k :| 0 <= k < |c| && IsDigit(c[k]);
      assert IsDigit(Upper(c)[k]);
    }
  }

  /** `extractOrderId`: the candidate, upper-cased, if it passes the plausibility filter. */
  function ExtractOrderId(text: string): (r: Option<string>)
    ensures r.Some? ==> WellShaped(r.value)
  {
    match Candidate(text)
    case None => None
    case Some(c) =>
      var id := Upper(c);
      if IsStopWord(id) then None
      else if !AllIdChars(id) then None
      else if |id| < 5 || |id| > 24 then None
      else
        UpperOfCandidate(c);
        Some(id)
  }

  /**
   * The stop-word and character-set filters never fire on a candidate: every capture
   * holds a digit and only `[A-Za-z0-9-]`. Only the length bounds decide.
   */
  lemma OnlyLengthDecides(text: string)
    ensures Candidate(text).None? ==> ExtractOrderId(text).None?
    ensures Candidate(text).Some? ==>
              var c := Candidate(text).value;
              && !IsStopWord(Upper(c))
              && AllIdChars(Upper(c))
              && ExtractOrderId(text) == (if 5 <= |c| <= 24 then Some(Upper(c)) else None)
  {
    if Candidate(text).Some? {
      var c := Candidate(text).value;
      UpperOfCandidate(c);
      DigitRulesOutStopWord(Upper(c));
    }
  }

  /** The keyword pattern matches somewhere in `text`. */
  ghost predicate HasKeywordMatch(text: string) {
    exists q :: 0 <= q <= |text| && MatchesAt(KeywordPattern, text, q)
  }

  /**
   * Precedence: when a keyword match exists anywhere, its capture is the candidate and the
   * bare-token fallback is never consulted, even if the capture then fails the filter;
   * only without any keyword match does the fallback decide.
   */
  lemma KeywordPrecedence(text: string)
    ensures HasKeywordMatch(text) ==> Candidate(text) == KeywordCandidate(text) && Candidate(text).Some?
    ensures !HasKeywordMatch(text) ==> Candidate(text) == TokenCandidate(text)
    ensures HasKeywordMatch(text) ==>
              ExtractOrderId(text) == (if 5 <= |KeywordCandidate(text).value| <= 24 then Some(Upper(KeywordCandidate(text).value)) else None)
  {
    SearchIff(KeywordPattern, text, 0);
    OnlyLengthDecides(text);
  }
}

=== FILE: triage_schema.dfy ===
/**
 * The triage record and the `TriageSchema` check it passes through: the intent
 * and language enums, the urgency enum with default `low`, language default `de`,
 * confidence default 0.6 and bounds [0, 1].
 */
module TriageSchema {
  import opened Base

  datatype Intent = OrderStatus | Cancellation | Technical | Other

  datatype Urgency = Low | Medium | High

  datatype Lang = De | En

  /** The `entities` object; every field may be absent. */
  datatype Entities = Entities(orderId: Option<string>, email: Option<string>, name: Option<string>)

  /** A triage record that passed `TriageSchema`. */
  datatype Triage = Triage(intent: Intent, urgency: Urgency, entities: Entities, language: Lang, confidence: real)

  /** A triage object as it arrives, before the schema looked at it; `None` is an absent field. */
  datatype RawTriage = RawTriage(
    intent: Option<string>,
    urgency: Option<string>,
    entities: Option<Entities>,
    language: Option<string>,
    confidence: Option<real>)

  /** What the schema complains about, one issue per offending field. */
  datatype Issue = BadIntent | BadUrgency | MissingEntities | BadEmail | BadLanguage | BadConfidence

  function IntentName(i: Intent): string {
    match i
    case OrderStatus => "order_status"
    case Cancellation => "cancellation"
    case Technical => "technical"
    case Other => "other"
  }

  function UrgencyName(u: Urgency): string {
    match u
    case Low => "low"
    case Medium => "medium"
    case High => "high"
  }

  function LangName(l: Lang): string {
    match l
    case De => "de"
    case En => "en"
  }

  /** `z.enum([...])` for the intent: only the four names are accepted. */
  function ParseIntent(s: string): (r: Option<Intent>)
    ensures r.Some? <==> s in {"order_status", "cancellation", "technical", "other"}
    ensures r.Some? ==> IntentName(r.value) == s
  {
    if s == "order_status" then Some(OrderStatus)
    else if s == "cancellation" then Some(Cancellation)
    else if s == "technical" then Some(Technical)
    else if s == "other" then Some(Other)
    else None
  }

  /** `z.enum([...]).default("low")`. */
  function ParseUrgency(s: Option<string>): (r: Option<Urgency>)
    ensures s.None? ==> r == Some(Low)
    ensures s.Some? ==> (r.Some? <==> s.value in {"low", "medium", "high"})
    ensures s.Some? && r.Some? ==> UrgencyName(r.value) == s.value
  {
    match s
    case None => Some(Low)
    case Some(v) =>
      if v == "low" then Some(Low)
      else if v == "medium" then Some(Medium)
      else if v == "high" then Some(High)
      else None
  }

  /** `z.enum(["de", "en"]).default("de")`. */
  function ParseLang(s: Option<string>): (r: Option<Lang>)
    ensures s.None? ==> r == Some(De)
    ensures s.Some? ==> (r.Some? <==> s.value in {"de", "en"})
    ensures s.Some? && r.Some? ==> LangName(r.value) == s.value
  {
    match s
    case None => Some(De)
    case Some(v) => if v == "de" then Some(De) else if v == "en" then Some(En) else None
  }

  /** `z.number().min(0).max(1).default(0.6)`. */
  function ParseConfidence(c: Option<real>): (r: Option<real>)
    ensures r.Some? ==> 0.0 <= r.value <= 1.0
    ensures c.None? ==> r == Some(0.6)
    ensures c.Some? ==> (r.Some? <==> 0.0 <= c.value <= 1.0) && (r.Some? ==> r.value == c.value)
  {
    match c
    case None => Some(0.6)
    case Some(v) => if 0.0 <= v <= 1.0 then Some(v) else None
  }

  function EntityIssues(e: Option<Entities>, isEmail: string -> bool): seq<Issue> {
    match e
    case None => [MissingEntities]
    case Some(ents) => if ents.email.Some? && !isEmail(ents.email.value) then [BadEmail] else []
  }

  /**
   * `TriageSchema.safeParse`: either every field is acceptable and the record is built
   * with the defaults filled in, or the issues are reported in field order.
   * `isEmail` stands for zod's e-mail format check.
   */
  function ParseTriage(raw: RawTriage, isEmail: string -> bool): (r: Result<Triage, seq<Issue>>)
    ensures r.Ok? <==>
              && raw.intent.Some? && ParseIntent(raw.intent.value).Some?
              && ParseUrgency(raw.urgency).Some?
              && EntityIssues(raw.entities, isEmail) == []
              && ParseLang(raw.language).Some?
              && ParseConfidence(raw.confidence).Some?
    ensures r.Ok? ==> 0.0 <= r.value.confidence <= 1.0
    ensures r.Ok? ==> Some(IntentName(r.value.intent)) == raw.intent && Some(r.value.entities) == raw.entities
    ensures r.Ok? ==> && Some(r.value.urgency) == ParseUrgency(raw.urgency)
                      && Some(r.value.language) == ParseLang(raw.language)
                      && Some(r.value.confidence) == ParseConfidence(raw.confidence)
    ensures r.Err? ==> |r.error| > 0
  {
    var intent := if raw.intent.Some? then ParseIntent(raw.intent.value) else None;
    var urgency := ParseUrgency(raw.urgency);
    var language := ParseLang(raw.language);
    var confidence := ParseConfidence(raw.confidence);
    var issues :=
      (if intent.None? then [BadIntent] else [])
      + (if urgency.None? then [BadUrgency] else [])
      + EntityIssues(raw.entities, isEmail)
      + (if language.None? then [BadLanguage] else [])
      + (if confidence.None? then [BadConfidence] else []);
    if issues == [] then
      Ok(Triage(intent.value, urgency.value, raw.entities.value, language.value, confidence.value))
    else
      Err(issues)
  }

  /** The triage record as JSON carries it to the next request. */
  function ToRaw(t: Triage): RawTriage {
    RawTriage(Some(IntentName(t.intent)), Some(UrgencyName(t.urgency)), Some(t.entities), Some(LangName(t.language)), Some(t.confidence))
  }

  /** Round trip: a record within the schema's bounds is read back unchanged. */
  lemma ParseToRaw(t: Triage, isEmail: string -> bool)
    requires 0.0 <= t.confidence <= 1.0
    requires t.entities.email.Some? ==> isEmail(t.entities.email.value)
    ensures ParseTriage(ToRaw(t), isEmail) == Ok(t)
  {
    match t.intent
    case OrderStatus =>
    case Cancellation =>
    case Technical =>
    case Other =>
  }

  /** An absent urgency, language or confidence takes the schema's default. */
  lemma Defaults(raw: RawTriage, isEmail: string -> bool)
    requires ParseTriage(raw, isEmail).Ok?
    ensures raw.urgency.None? ==> ParseTriage(raw, isEmail).value.urgency == Low
    ensures raw.language.None? ==> ParseTriage(raw, isEmail).value.language == De
    ensures raw.confidence.None? ==> ParseTriage(raw, isEmail).value.confidence == 0.6
  {
  }
}
